=== FILE: README.md ===
# Grouped inputs: a Dafny model

The application keeps named **groups** of short text **inputs**. A group has a
unique name. An input belongs to one group and carries a name, a selection
flag, a soft-delete flag and a position (`orderNum`). Two Express routers serve
the data. The React editor `MultiBox` edits one group at a time as a list of
text boxes, with a running "selected / total" summary. Saving the editor writes
the group and then reconciles the group's inputs in one bulk request.

This project models:

- **The inputs router.** Create, update, soft delete, the per-group listing and
  the bulk reconciliation `POST /bulk`. The reconciliation soft-deletes inputs
  that no longer appear in the request, overwrites those that do, and inserts
  the rest.
- **The groups router.** Create, rename, name check, name search, and the
  cascading delete that soft-deletes the group's inputs.
- **The editor.** The add, copy, toggle and delete handlers and their two
  counters, the fraction summary, the load of a group (its name, then its
  listing) into the name fields and the boxes, the save guards and the bulk
  payload.

Each table is a map from id to row plus the auto-increment counter. The subset
types `InputTable.Table` and `GroupTable.Table` carry the invariant that every
id lies in `[1, nextId)`. A handler is a pure function returning the new table
and a `Result`. Id 0 stands for every falsy id (`null`, `undefined`, `0`). An
`Option` stands for a request field that may be `undefined`. Error answers map
as follows:

- 400 becomes `Invalid` or `Duplicate`.
- 404 becomes `NotFound`.
- A statement the store rejects or a handler that throws (500) becomes
  `StoreFailure`.

Files:

- `text.dfy`: `String.prototype.trim` over the ECMAScript white-space set, and
  substring containment.
- `results.dfy`: `Option`, `Result` and the error kinds.
- `input_table.dfy`: the input rows and the single-row handlers of the inputs
  router, plus the listing.
- `bulk_save.dfy`: `POST /bulk` and its specification lemmas.
- `group_table.dfy`: the groups router.
- `multi_box.dfy`: the editor's box list, its counters and the load.
- `fraction.dfy`: the summary shown next to the list.
- `save_flow.dfy`: the save of the editor against both routers, and the
  round-trip theorems.

The main end-to-end results are these:

- `SaveFlow.PayloadReconciles`: after a save, the group's live rows are
  exactly the boxes.
- `SaveFlow.SaveThenLoad`: with the listing's group id bound
  (`InputTable.ListByGroup`, the corrected listing of the Findings), reloading
  the group after a save shows the same list in the same order. As written the
  listing always fails. The reload then keeps the boxes and counters, and boxes
  added before the save keep id 0. The group lookup before it still resets the
  name field and the loaded name to the saved name, so the next save skips the
  name check (`SaveFlow.SaveThenLoadAsWritten`).
- `BulkSave.BulkIdempotent`: saving the same list a second time, each new
  record now carrying the id it received, changes nothing.
- The `KeepsInvariants` lemmas of `MultiBox` and the contract of `MultiBox.Load`:
  the editor never holds two boxes with the same stored id, which the first
  result needs.

Two assumptions about the database driver:

- `affectedRows` counts matched rows, the MySQL driver's default. So renaming a
  group to its own name succeeds, and soft-deleting an already deleted input
  succeeds.
- An `UPDATE` whose `WHERE Id = ?` matches nothing changes nothing.

## Model

| member | source | states |
|---|---|---|
| Text.Trim | server/routes/inputs.js:43-49 | the trimmed string is the infix left after an all-white-space prefix and suffix, starts and ends with non-space, and is empty exactly when the string is all white space |
| Text.TrimIdempotent | src/components/MultiBox.jsx:98 | trimming a name the editor already trimmed changes nothing when the server trims it again |
| InputTable.Create | server/routes/inputs.js:39-64 | rejected with the table unchanged exactly when the group id is falsy or the name is missing or blank after trimming; otherwise exactly one fresh row is added with the trimmed name, the flags defaulting to false and the position to 0 |
| InputTable.CreateIsListed | server/routes/inputs.js:47-58 | with the listing's group id bound (the corrected `ListByGroup`), a created input appears in its group's listing, and is live unless created deleted; the listing as written fails instead |
| InputTable.Update | server/routes/inputs.js:67-112 | an empty body is rejected before the id is looked up; an unknown id gives not-found; otherwise exactly the supplied columns of that one row change and every other row is untouched |
| InputTable.UpdateIdempotent | server/routes/inputs.js:72-101 | sending the same update twice leaves the same table and answer as sending it once |
| InputTable.Delete | server/routes/inputs.js:115-132 | succeeds exactly when the id exists, and then only that row's deleted flag changes, to true |
| InputTable.DeleteTwice | server/routes/inputs.js:118-125 | soft-deleting twice is soft-deleting once, the second call also answering success |
| InputTable.ListForGroup | server/routes/inputs.js:11 | the listing holds every row of the group, deleted ones included, and nothing else, sorted by position and then id |
| InputTable.ListByGroupAsWritten | server/routes/inputs.js:7-13 | the handler as written always answers with an error |
| InputTable.ListByGroup | server/routes/inputs.js:7-13 | with the group id bound, the listing succeeds and is the sorted, exact list of the group's rows |
| InputTable.ListingAsWrittenLosesRows | server/routes/inputs.js:10-12 | a concrete table where a stored row of the group is missing from the answer as written but present in the corrected listing |
| BulkSave.IncomingIds | server/routes/inputs.js:155 | an id is incoming exactly when it is non-zero and some record carries it |
| BulkSave.Bulk | server/routes/inputs.js:135-195 | rejected as invalid exactly when the group id is falsy or the list is missing; fails as a whole exactly when some record lacks a name, with every row restored while the auto-increment counter keeps the values drawn before the failure; never fails otherwise |
| BulkSave.BulkRollback | server/routes/inputs.js:167-187 | after a nameless record the rows are as before the request, and the counter stands where the loop left it after the records preceding the first nameless one |
| BulkSave.ApplySpec | server/routes/inputs.js:167-181 | the loop overwrites each row of the group with the last record carrying its id, inserts the other records in order on fresh ids, and touches nothing else |
| BulkSave.BulkSpec | server/routes/inputs.js:150-181 | after a successful bulk save: ids only grow by the inserted count; rows of other groups are unchanged; rows of the group no record carries are only soft-deleted; the others are overwritten by their last record; new rows hold the inserting records in request order |
| BulkSave.BulkIdempotent | server/routes/inputs.js:150-181 | a second bulk save of the same records, with each inserting record carrying the id its row received, succeeds and leaves the table exactly as the first save left it |
| BulkSave.BulkEmpty | server/routes/inputs.js:154-164 | an empty list soft-deletes every row of the group and removes nothing |
| GroupTable.Get | server/routes/groups.js:19-35 | answers the group stored under the id, and not-found exactly when there is none |
| GroupTable.CheckName | server/routes/groups.js:53-65 | reports that a name exists exactly when some group holds it verbatim, and then returns such a group's id |
| GroupTable.CheckFindsTheOwner | server/routes/groups.js:56-60 | with unique names, the check for a group's name returns that group's id |
| GroupTable.Create | server/routes/groups.js:68-99 | invalid exactly for a missing or blank name, duplicate exactly when the trimmed name is already held, otherwise one fresh group with the trimmed name; never breaks name uniqueness |
| GroupTable.CreateTwiceConflicts | server/routes/groups.js:76-84 | creating a second group whose name trims to the same text is refused as a duplicate |
| GroupTable.Rename | server/routes/groups.js:102-138 | checks in order: blank name, name held by another group, unknown id; succeeds exactly when the name is not blank, no other group holds its trimmed form and the id exists; on success only that group's name changes, to the trimmed name; never breaks name uniqueness |
| GroupTable.RenameToOwnName | server/routes/groups.js:111-128 | renaming a group to its current name succeeds and changes nothing |
| GroupTable.RenameConflictBeforeNotFound | server/routes/groups.js:111-128 | renaming an unknown id to a held name answers duplicate, not not-found |
| GroupTable.Search | server/routes/groups.js:38-50 | at most five names, each containing the fragment and different from it; when fewer than five come back, every such name is among them; with unique group names, no name comes back twice |
| GroupTable.Delete | server/routes/groups.js:141-166 | the group's inputs are soft-deleted whether or not the group exists; the group is removed, or not-found is answered when it is missing; other inputs and groups are untouched |
| GroupTable.DeleteMissingStillFlagsInputs | server/routes/groups.js:145-159 | deleting a missing group answers not-found yet still changes the table of inputs |
| MultiBox.Add | src/components/MultiBox.jsx:93-106 | blank text changes nothing; otherwise one unsaved, unselected box with the trimmed text is appended at the end, the total grows by one and the field is cleared |
| MultiBox.AddKeepsInvariants | src/components/MultiBox.jsx:93-106 | adding keeps the counters equal to the boxes' selected and total numbers, keeps positions equal to indices and keeps stored ids distinct |
| MultiBox.Copy | src/components/MultiBox.jsx:114-136 | an unsaved copy with the same name and selection lands right after the original; earlier boxes keep their place, later ones shift by one, all renumbered; the counters move by one and by the copy's selection |
| MultiBox.CopyKeepsInvariants | src/components/MultiBox.jsx:114-136 | copying keeps the counters in step with the boxes, leaves boxes up to the original untouched on a numbered list, and keeps stored ids distinct |
| MultiBox.Toggle | src/components/MultiBox.jsx:138-145 | only the chosen box's selection flips; the selected count is recounted from the boxes |
| MultiBox.ToggleKeepsInvariants | src/components/MultiBox.jsx:138-145 | toggling moves the selected count by exactly one in the direction of the flip, and toggling twice restores the state |
| MultiBox.Delete | src/components/MultiBox.jsx:147-161 | exactly the chosen box is removed, the others keep their relative order and are renumbered; the counters drop by one and by its selection |
| MultiBox.DeleteKeepsInvariants | src/components/MultiBox.jsx:147-161 | deleting keeps the counters in step with the boxes and keeps stored ids distinct |
| MultiBox.DeleteUndoesCopy | src/components/MultiBox.jsx:114-161 | on a list whose positions equal their indices, deleting the copy just made restores the state exactly |
| MultiBox.Visible | src/components/MultiBox.jsx:33 | keeps exactly the listed rows that are not deleted; a sorted listing stays sorted, and distinct ids stay distinct |
| MultiBox.UpdateCountsOfVisible | src/components/MultiBox.jsx:57-62 | counting rows that are selected and not deleted, and rows not deleted, gives the selected and total numbers of the boxes they become |
| MultiBox.LoadAnswer | src/components/MultiBox.jsx:25-47 | a failed group lookup leaves the editor exactly as it was; a successful one sets both the name field and the loaded name to the group's name, even when the listing then fails; a failure keeps the boxes and counters; a successful listing loads its live rows as boxes with consistent counters |
| MultiBox.Load | src/components/MultiBox.jsx:32-41 | the boxes are the listing's live rows in listing order, with their id, name, selection and position; the counters agree with the boxes; distinct ids in the listing give distinct box ids |
| Fraction.GetFraction | src/components/MultiBox.jsx:163-177 | blank exactly for an empty list; a fraction glyph exactly when at least one but not all of at most five boxes are selected, and the glyph's value is selected over total; otherwise the plain ratio text |
| Fraction.SummaryOfState | src/components/MultiBox.jsx:163-177 | with consistent counters the summary is blank exactly for no boxes, and a glyph exactly when there are at most five boxes, some selected and some not |
| SaveFlow.Guard | src/components/MultiBox.jsx:179-201 | the save stops for a blank name, then for an empty list, then, with unique group names, exactly when another group than the edited one holds the typed name and the name must be rechecked |
| SaveFlow.CheckMatchesTaken | src/components/MultiBox.jsx:194-196 | with unique names, the check answer counts as a conflict exactly when a group other than the edited one holds the name |
| SaveFlow.Payload | src/components/MultiBox.jsx:215-221 | one record per box in order, with its id, its name, its selection, not deleted, and its index as position |
| SaveFlow.PayloadReconciles | src/components/MultiBox.jsx:215-224 | saving boxes with distinct stored ids succeeds; every box becomes a live row of the group with its trimmed name, selection and position; every live row of the group is such a row; no two share a position; other groups are untouched |
| SaveFlow.SavedListing | server/routes/inputs.js:7-13 | after a save, the live rows of the group's listing, taken with the group id bound (the corrected `ListByGroup`), are the boxes' rows, one per box, in box order |
| SaveFlow.SaveThenLoad | src/components/MultiBox.jsx:224-233 | with the corrected listing, reloading after a save shows as many boxes as were saved, in the same order, with trimmed names, the same selections, positions equal to indices and consistent counters |
| SaveFlow.SaveThenLoadAsWritten | src/components/MultiBox.jsx:224-234 | with the listing as written, the reload after an edit-mode save keeps the boxes and counters, so boxes added before the save still have no stored id; the group lookup sets the name field and the loaded name to the trimmed saved name, so the next save does not recheck the name |
| SaveFlow.Save | src/components/MultiBox.jsx:179-241 | a guard stop writes nothing; a success names a group that holds the trimmed name and leaves the inputs as the bulk save of the payload; a failed save is a refused group write and leaves both tables as they were, since the bulk save of a payload cannot fail; editing saves into the edited group and creating into a fresh one; group name uniqueness is kept |
| SaveFlow.CreateSaves | src/components/MultiBox.jsx:203-224 | creating under a fresh trimmed name always succeeds, adds exactly that group and stores the boxes |
| SaveFlow.EditSaves | src/components/MultiBox.jsx:203-224 | editing a group under a trimmed name no other group holds always succeeds, sets that group's name and stores the boxes |
| SaveFlow.TrailingSpaceCaughtByServer | src/components/MultiBox.jsx:194-210 | a name with a trailing space passes the client's check, which compares it untrimmed, and is then refused by the server as a duplicate with nothing written |

## Left out

- The single-row lookup `GET /inputs/:id` and the group listing `GET /groups` ordered by `modifiedAt`: plain reads with no logic, and timestamps are not modelled.
- Timestamps (`createdAt`, `modifiedAt`) and the database schema: the schema is not part of this model, so the foreign key from inputs to groups is not modelled either. An input may name a group id that does not exist.
- `LIKE` in the search: the fragment is matched as a literal substring. The wildcards `%` and `_` inside the fragment, and case- or accent-insensitive collation, are not modelled.
- Name comparison is exact code-point equality. Collation-dependent equality in `groupName = ?` (for example trailing-space padding) is not modelled.
- Concurrency between requests, transaction isolation, and connection failures. Any failure of the store other than a nameless record or the unbound listing parameter is left out.
- The editor's suggestion box, its 300 ms debounce, alerts, navigation, loading flags and the key handler: user-interface plumbing with no state the model keeps.
- JavaScript coercions: a non-numeric `?id=` parsed by `parseInt`, ids sent as strings, truthy non-boolean flags, a `null` element in the bulk array, and a `null` name in `PUT /:id`. Each of these makes the handler throw or coerce in ways outside the modelled types.
- GroupTable.Delete: the model assumes the foreign key from inputs to groups neither blocks nor cascades `DELETE FROM dbGroup` (server/routes/groups.js:152-155). The schema is not part of this model.
- Text.Trim: characters and strings are compared by code point. No Unicode normalisation is done, as in the source.
- Fraction.GetFraction: the glyphs are abstract values. The source file's literal characters for them are not modelled.

## Findings

| source | as written | input that shows it | evidently intended | confidence | as-written member | corrected member |
|---|---|---|---|---|---|---|
| server/routes/inputs.js:10-12 | the listing statement has one `?` placeholder but no value array is passed, so the prepared statement cannot run and the handler answers 500 | group 1 holding input 1; `GET /inputs/group/1` | bind `[groupId]`, giving the group's rows ordered by position and id | medium, not executed | InputTable.ListByGroupAsWritten, InputTable.ListingAsWrittenLosesRows, SaveFlow.SaveThenLoadAsWritten | InputTable.ListByGroup |

=== FILE: bulk_save.dfy ===
/** `POST /inputs/bulk`: reconciles the rows stored under a group with the
    list the client sends. Rows whose ids the list does not carry are
    soft-deleted, rows it does carry are overwritten, and every other
    record becomes a new row; all inside one transaction. */
module BulkSave {
  import opened Text
  import opened Results
  import opened InputTable

  /** One element of the `inputs` array. Id 0 stands for every falsy id:
      missing, `null` or 0. */
  datatype Record = Record(id: nat, fields: Fields)

  /** `SELECT Id FROM dbInputs WHERE groupID = ?`: every row of the group,
      soft-deleted or not. */
  function ExistingIds(t: Table, gid: nat): (e: set<nat>)
    ensures forall k :: k in e <==> k in t.rows && t.rows[k].groupId == gid
  {
    set k | k in t.rows && t.rows[k].groupId == gid
  }

  /** The position of the last record carrying id `k`, if any. */
  function LastIndex(recs: seq<Record>, k: nat): (r: Option<nat>)
    ensures r.Some? ==> r.value < |recs| && recs[r.value].id == k
    ensures r.Some? ==> forall j | r.value < j < |recs| :: recs[j].id != k
    ensures r.None? ==> forall j | 0 <= j < |recs| :: recs[j].id != k
  {
    if recs == [] then None
    else if recs[|recs| - 1].id == k then Some(|recs| - 1)
    else LastIndex(recs[..|recs| - 1], k)
  }

  /** The truthy ids among the records. */
  function IncomingIds(recs: seq<Record>): (s: set<nat>)
    ensures forall k :: k in s <==> k != 0 && LastIndex(recs, k).Some?
  {
    set i | 0 <= i < |recs| && recs[i].id != 0 :: recs[i].id
  }

  /** A record overwrites a row when its id is truthy and belongs to the
      group; any other record is inserted. */
  predicate IsUpdate(rec: Record, existing: set<nat>) {
    rec.id != 0 && rec.id in existing
  }

  /** `UPDATE dbInputs SET Name, isSelected, isDeleted, orderNum`: the
      overwritten row is the row an insert under its own group would write. */
  function Overwrite(row: Row, f: Fields): (r: Row)
    requires f.name.Some?
    ensures r == NewRow(row.groupId, f)
  {
    row.(name := Trim(f.name.value), isSelected := f.isSelected.GetOr(false),
         isDeleted := f.isDeleted.GetOr(false), orderNum := f.orderNum.GetOr(0))
  }

  /** One iteration of the loop over the records. A record without a name
      makes `input.Name.trim()` throw. An UPDATE of an id no row has is a
      no-op. */
  function Step(t: Table, gid: nat, existing: set<nat>, rec: Record): (r: Result<Table>)
    ensures r.Ok? <==> rec.fields.name.Some?
    ensures r.Err? ==> r.error == StoreFailure
  {
    if rec.fields.name.None? then Err(StoreFailure)
    else if IsUpdate(rec, existing) then
      if rec.id in t.rows then Ok(Store(t.rows[rec.id := Overwrite(t.rows[rec.id], rec.fields)], t.nextId))
      else Ok(t)
    else Ok(Insert(t, NewRow(gid, rec.fields)).0)
  }

  /** The loop: the records in order, stopping at the first failure. */
  function Apply(t: Table, gid: nat, existing: set<nat>, recs: seq<Record>): (r: Result<Table>)
    ensures r.Ok? <==> AllNamed(recs)
    ensures r.Err? ==> r.error == StoreFailure
    decreases |recs|
  {
    if recs == [] then Ok(t)
    else
      NamedSplit(recs);
      match Apply(t, gid, existing, recs[..|recs| - 1])
      case Err(e) => Err(e)
      case Ok(t1) => Step(t1, gid, existing, recs[|recs| - 1])
  }

  /** Every record is named exactly when all but the last are and the
      last is. */
  lemma NamedSplit(recs: seq<Record>)
    requires recs != []
    ensures AllNamed(recs) <==> AllNamed(recs[..|recs| - 1]) && recs[|recs| - 1].fields.name.Some?
  {
    var init := recs[..|recs| - 1];
    assert forall i | 0 <= i < |init| :: init[i] == recs[i];
  }

  /** The position of the first record without a name, or `|recs|` when
      every record has one: where the loop throws. */
  function FirstUnnamed(recs: seq<Record>): (n: nat)
    ensures n <= |recs|
    ensures forall i | 0 <= i < n :: recs[i].fields.name.Some?
    ensures n < |recs| ==> recs[n].fields.name.None?
  {
    if recs == [] || recs[0].fields.name.None? then 0
    else 1 + FirstUnnamed(recs[1..])
  }

  /** The handler. A missing group id or a body whose `inputs` is not an
      array gives 400 before the transaction starts, with the table as it
      was. An exception inside the transaction rolls it back: every row is
      as before, but the auto-increment counter keeps the values the
      INSERTs before the failing record drew, since a rollback does not
      give them back. */
  function Bulk(t: Table, gid: nat, inputs: Option<seq<Record>>): (r: Reply<()>)
    ensures r.result.Err? ==> r.table.rows == t.rows && t.nextId <= r.table.nextId
    ensures r.result == Err(Invalid) ==> r.table == t
    ensures r.result == Err(Invalid) <==> gid == 0 || inputs.None?
    ensures r.result.Ok? <==>
      gid != 0 && inputs.Some? && AllNamed(inputs.value)
    ensures r.result.Err? ==> r.result.error in {Invalid, StoreFailure}
  {
    if gid == 0 || inputs.None? then Reply(t, Err(Invalid))
    else
      var recs := inputs.value;
      var existing := ExistingIds(t, gid);
      var t0 := SoftDeleteAll(t, existing - IncomingIds(recs));
      match Apply(t0, gid, existing, recs)
      case Ok(t') => Reply(t', Ok(()))
      case Err(e) =>
        Reply(Store(t.rows, t.nextId + |Inserts(recs[..FirstUnnamed(recs)], existing)|), Err(e))
  }

  /** The records that insert, in request order. */
  function Inserts(recs: seq<Record>, existing: set<nat>): (r: seq<Record>)
    ensures |r| <= |recs|
    ensures forall n | 0 <= n < |r| :: !IsUpdate(r[n], existing) && r[n] in recs
    ensures (forall i, j | 0 <= i < j < |recs| :: recs[i] != recs[j]) ==>
      forall a, b | 0 <= a < b < |r| :: r[a] != r[b]
  {
    if recs == [] then []
    else
      var init := recs[..|recs| - 1];
      var x := recs[|recs| - 1];
      var p := Inserts(init, existing);
      assert forall i | 0 <= i < |init| :: init[i] == recs[i];
      if IsUpdate(x, existing) then p else p + [x]
  }

  /** Every record has a name, so no `trim()` throws. */
  predicate AllNamed(recs: seq<Record>) {
    forall i | 0 <= i < |recs| :: recs[i].fields.name.Some?
  }

  /** What becomes of `row`, stored under id `k` in the group: the last
      record carrying `k` overwrites it; with no such record it stays. */
  function Written(row: Row, gid: nat, recs: seq<Record>, k: nat): Row
    requires AllNamed(recs)
  {
    match LastIndex(recs, k)
    case None => row
    case Some(i) => NewRow(gid, recs[i].fields)
  }

  /** The ids of `t'` are those of `t` and the counter values issued since. */
  ghost predicate OnlyFreshIdsAdded(t: Table, t': Table) {
    t.nextId <= t'.nextId && forall k :: k in t'.rows <==> k in t.rows || t.nextId <= k < t'.nextId
  }

  /** Rows outside `existing` are untouched. */
  ghost predicate OthersKept(t: Table, t': Table, existing: set<nat>) {
    forall k | k in t.rows && k !in existing :: k in t'.rows && t'.rows[k] == t.rows[k]
  }

  /** Each row of `existing` is as the last record carrying its id wrote it. */
  ghost predicate GroupWritten(t: Table, t': Table, gid: nat, existing: set<nat>, recs: seq<Record>)
    requires AllNamed(recs)
  {
    forall k | k in t.rows && k in existing :: k in t'.rows && t'.rows[k] == Written(t.rows[k], gid, recs, k)
  }

  /** The inserting records sit, in order, on the ids issued from `base`. */
  ghost predicate InsertsPlaced(t': Table, gid: nat, base: nat, ins: seq<Record>)
    requires AllNamed(ins)
  {
    forall j | base <= j < base + |ins| :: j in t'.rows && t'.rows[j] == NewRow(gid, ins[j - base].fields)
  }

  /** `t'` is what the loop over `recs` makes of `t`: the counter advances
      by the number of inserting records, which land in request order on
      the fresh ids; a row of the group ends up as written by the last
      record carrying its id; every other row is untouched. */
  ghost predicate Reconciled(t: Table, t': Table, gid: nat, existing: set<nat>, recs: seq<Record>) {
    var ins := Inserts(recs, existing);
    && AllNamed(recs)
    && t'.nextId == t.nextId + |ins|
    && OnlyFreshIdsAdded(t, t')
    && OthersKept(t, t', existing)
    && GroupWritten(t, t', gid, existing, recs)
    && InsertsPlaced(t', gid, t.nextId, ins)
  }

  /** The rows of `existing` all belong to the group. */
  ghost predicate OwnedBy(t: Table, gid: nat, existing: set<nat>) {
    forall k | k in existing :: k in t.rows && t.rows[k].groupId == gid
  }

  /** A prefix of a named list is named. */
  lemma InitNamed(recs: seq<Record>)
    requires recs != [] && AllNamed(recs)
    ensures AllNamed(recs[..|recs| - 1])
  {
    var init := recs[..|recs| - 1];
    assert forall i | 0 <= i < |init| :: init[i] == recs[i];
  }

  /** Overwriting the row of `x.id`, the last record, keeps the group rows
      as the records wrote them. */
  lemma OverwriteKeepsGroupWritten(t: Table, t1: Table, t': Table, gid: nat, existing: set<nat>, recs: seq<Record>)
    requires recs != [] && AllNamed(recs) && AllNamed(recs[..|recs| - 1])
    requires GroupWritten(t, t1, gid, existing, recs[..|recs| - 1])
    requires var x := recs[|recs| - 1]; x.id in t1.rows && t'.rows == t1.rows[x.id := NewRow(gid, x.fields)]
    ensures GroupWritten(t, t', gid, existing, recs)
  {
    var x := recs[|recs| - 1];
    forall k | k in t.rows && k in existing
      ensures k in t'.rows && t'.rows[k] == Written(t.rows[k], gid, recs, k)
    {
      WrittenAfter(t.rows[k], t1.rows[k], t'.rows[k], gid, recs, k);
    }
  }

  /** The row of id `k` after one more record: the last record's row when
      it carries `k`, otherwise the row as the records before it left it. */
  lemma WrittenAfter(row: Row, r1: Row, r': Row, gid: nat, recs: seq<Record>, k: nat)
    requires recs != [] && AllNamed(recs) && AllNamed(recs[..|recs| - 1])
    requires r1 == Written(row, gid, recs[..|recs| - 1], k)
    requires recs[|recs| - 1].id == k ==> r' == NewRow(gid, recs[|recs| - 1].fields)
    requires recs[|recs| - 1].id != k ==> r' == r1
    ensures r' == Written(row, gid, recs, k)
  {
    if recs[|recs| - 1].id != k {
      WrittenByInit(row, gid, recs, k);
    }
  }

  /** A row whose id the last record does not carry is written as the
      records before it wrote it. */
  lemma WrittenByInit(row: Row, gid: nat, recs: seq<Record>, k: nat)
    requires recs != [] && AllNamed(recs) && AllNamed(recs[..|recs| - 1])
    requires recs[|recs| - 1].id != k
    ensures Written(row, gid, recs, k) == Written(row, gid, recs[..|recs| - 1], k)
  {
    var init := recs[..|recs| - 1];
    assert LastIndex(recs, k) == LastIndex(init, k);
    if LastIndex(init, k).Some? {
      assert init[LastIndex(init, k).value] == recs[LastIndex(init, k).value];
    }
  }

  /** Overwriting a row of the group leaves the inserted rows in place. */
  lemma OverwriteKeepsInsertsPlaced(t: Table, t1: Table, t': Table, gid: nat, id: nat, row: Row, ins: seq<Record>)
    requires AllNamed(ins)
    requires id < t.nextId
    requires InsertsPlaced(t1, gid, t.nextId, ins)
    requires t'.rows == t1.rows[id := row]
    ensures InsertsPlaced(t', gid, t.nextId, ins)
  {
    forall j | t.nextId <= j < t.nextId + |ins|
      ensures j in t'.rows && t'.rows[j] == NewRow(gid, ins[j - t.nextId].fields)
    {
      assert j != id;
    }
  }

  /** One more overwriting record keeps `Reconciled`. */
  lemma ExtendByUpdate(t: Table, t1: Table, gid: nat, existing: set<nat>, recs: seq<Record>)
    requires recs != [] && AllNamed(recs)
    requires OwnedBy(t, gid, existing)
    requires IsUpdate(recs[|recs| - 1], existing)
    requires Reconciled(t, t1, gid, existing, recs[..|recs| - 1])
    ensures Step(t1, gid, existing, recs[|recs| - 1]).Ok?
    ensures Reconciled(t, Step(t1, gid, existing, recs[|recs| - 1]).value, gid, existing, recs)
  {
    var init := recs[..|recs| - 1];
    var x := recs[|recs| - 1];
    InitNamed(recs);
    var ins := Inserts(init, existing);
    InsertsSkipUpdate(recs, existing);
    assert x.id in t1.rows && t1.rows[x.id].groupId == gid by {
      assert x.id in t.rows && t1.rows[x.id] == Written(t.rows[x.id], gid, init, x.id);
    }
    StepUpdates(t1, gid, existing, x);
    var t' := Step(t1, gid, existing, x).value;
    UpdateKeepsFrame(t, t1, t', existing, x.id);
    OverwriteKeepsGroupWritten(t, t1, t', gid, existing, recs);
    OverwriteKeepsInsertsPlaced(t, t1, t', gid, x.id, NewRow(gid, x.fields), ins);
  }

  /** An overwriting record leaves the list of inserting records as it was. */
  lemma InsertsSkipUpdate(recs: seq<Record>, existing: set<nat>)
    requires recs != [] && IsUpdate(recs[|recs| - 1], existing)
    ensures Inserts(recs, existing) == Inserts(recs[..|recs| - 1], existing)
  {
  }

  /** An inserting record is appended to the list of inserting records. */
  lemma InsertsTakeInsert(recs: seq<Record>, existing: set<nat>)
    requires recs != [] && !IsUpdate(recs[|recs| - 1], existing)
    ensures Inserts(recs, existing) == Inserts(recs[..|recs| - 1], existing) + [recs[|recs| - 1]]
  {
  }

  /** The step of an overwriting record whose row exists. */
  lemma StepUpdates(t1: Table, gid: nat, existing: set<nat>, x: Record)
    requires x.fields.name.Some? && IsUpdate(x, existing)
    requires x.id in t1.rows && t1.rows[x.id].groupId == gid
    ensures Step(t1, gid, existing, x).Ok?
    ensures var t' := Step(t1, gid, existing, x).value;
      t'.rows == t1.rows[x.id := NewRow(gid, x.fields)] && t'.nextId == t1.nextId
  {
  }

  /** The step of an inserting record. */
  lemma StepInserts(t1: Table, gid: nat, existing: set<nat>, x: Record)
    requires x.fields.name.Some? && !IsUpdate(x, existing)
    ensures Step(t1, gid, existing, x).Ok?
    ensures var t' := Step(t1, gid, existing, x).value;
      t'.rows == t1.rows[t1.nextId := NewRow(gid, x.fields)] && t'.nextId == t1.nextId + 1
  {
  }

  /** Overwriting a row of `existing` keeps the id set and the other rows. */
  lemma UpdateKeepsFrame(t: Table, t1: Table, t': Table, existing: set<nat>, id: nat)
    requires OnlyFreshIdsAdded(t, t1) && OthersKept(t, t1, existing)
    requires id in existing && id in t1.rows
    requires t'.nextId == t1.nextId && t'.rows.Keys == t1.rows.Keys
    requires forall k | k in t1.rows && k != id :: t'.rows[k] == t1.rows[k]
    ensures OnlyFreshIdsAdded(t, t') && OthersKept(t, t', existing)
  {
  }

  /** Adding a row under the next id keeps the id set fresh and the other
      rows. */
  lemma InsertKeepsFrame(t: Table, t1: Table, t': Table, existing: set<nat>, row: Row)
    requires OnlyFreshIdsAdded(t, t1) && OthersKept(t, t1, existing)
    requires t'.nextId == t1.nextId + 1 && t'.rows == t1.rows[t1.nextId := row]
    ensures OnlyFreshIdsAdded(t, t') && OthersKept(t, t', existing)
  {
  }

  /** Inserting the last record under a fresh id keeps the group rows as
      the records wrote them. */
  lemma InsertKeepsGroupWritten(t: Table, t1: Table, t': Table, gid: nat, existing: set<nat>, recs: seq<Record>)
    requires recs != [] && AllNamed(recs) && AllNamed(recs[..|recs| - 1])
    requires !IsUpdate(recs[|recs| - 1], existing)
    requires GroupWritten(t, t1, gid, existing, recs[..|recs| - 1])
    requires t.nextId <= t1.nextId && t'.rows == t1.rows[t1.nextId := NewRow(gid, recs[|recs| - 1].fields)]
    ensures GroupWritten(t, t', gid, existing, recs)
  {
    forall k | k in t.rows && k in existing
      ensures k in t'.rows && t'.rows[k] == Written(t.rows[k], gid, recs, k)
    {
      assert k < t.nextId <= t1.nextId;
      WrittenAfter(t.rows[k], t1.rows[k], t'.rows[k], gid, recs, k);
    }
  }

  /** Inserting the next record under the next id extends the placed
      inserts by one. */
  lemma InsertExtendsInsertsPlaced(t: Table, t1: Table, t': Table, gid: nat, ins: seq<Record>, x: Record)
    requires x.fields.name.Some? && AllNamed(ins)
    requires t1.nextId == t.nextId + |ins|
    requires InsertsPlaced(t1, gid, t.nextId, ins)
    requires t'.rows == t1.rows[t1.nextId := NewRow(gid, x.fields)]
    ensures InsertsPlaced(t', gid, t.nextId, ins + [x])
  {
    var ins' := ins + [x];
    assert AllNamed(ins');
    forall j | t.nextId <= j < t.nextId + |ins'|
      ensures j in t'.rows && t'.rows[j] == NewRow(gid, ins'[j - t.nextId].fields)
    {
      if j < t1.nextId {
        assert j in t1.rows && t1.rows[j] == NewRow(gid, ins[j - t.nextId].fields);
        assert t'.rows[j] == t1.rows[j];
        assert ins'[j - t.nextId] == ins[j - t.nextId];
      } else {
        assert j == t1.nextId;
        assert ins'[j - t.nextId] == x;
      }
    }
  }

  /** One more inserting record keeps `Reconciled`. */
  lemma ExtendByInsert(t: Table, t1: Table, gid: nat, existing: set<nat>, recs: seq<Record>)
    requires recs != [] && AllNamed(recs)
    requires !IsUpdate(recs[|recs| - 1], existing)
    requires Reconciled(t, t1, gid, existing, recs[..|recs| - 1])
    ensures Step(t1, gid, existing, recs[|recs| - 1]).Ok?
    ensures Reconciled(t, Step(t1, gid, existing, recs[|recs| - 1]).value, gid, existing, recs)
  {
    var init := recs[..|recs| - 1];
    var x := recs[|recs| - 1];
    InitNamed(recs);
    var ins := Inserts(init, existing);
    InsertsTakeInsert(recs, existing);
    StepInserts(t1, gid, existing, x);
    var t' := Step(t1, gid, existing, x).value;
    InsertKeepsFrame(t, t1, t', existing, NewRow(gid, x.fields));
    InsertKeepsGroupWritten(t, t1, t', gid, existing, recs);
    InsertExtendsInsertsPlaced(t, t1, t', gid, ins, x);
  }

  /** The loop over all of `recs` establishes `Reconciled`. */
  lemma {:induction false} ApplySpec(t: Table, gid: nat, existing: set<nat>, recs: seq<Record>)
    requires OwnedBy(t, gid, existing)
    requires AllNamed(recs)
    ensures Apply(t, gid, existing, recs).Ok?
    ensures Reconciled(t, Apply(t, gid, existing, recs).value, gid, existing, recs)
    decreases |recs|
  {
    if recs == [] {
      var t' := Apply(t, gid, existing, recs).value;
      assert t' == t;
      assert forall k | k in t.rows && k in existing :: LastIndex(recs, k).None?;
    } else {
      var init := recs[..|recs| - 1];
      assert forall i | 0 <= i < |init| :: init[i] == recs[i];
      ApplySpec(t, gid, existing, init);
      var t1 := Apply(t, gid, existing, init).value;
      assert Apply(t, gid, existing, recs) == Step(t1, gid, existing, recs[|recs| - 1]);
      if IsUpdate(recs[|recs| - 1], existing) {
        ExtendByUpdate(t, t1, gid, existing, recs);
      } else {
        ExtendByInsert(t, t1, gid, existing, recs);
      }
    }
  }

  /** Reconciliation, stated against the table before the request:
      - it succeeds when every record has a name;
      - no row is removed, and the only new ids are the next
        `|Inserts|` counter values, holding the inserting records in order;
      - rows of other groups are never modified;
      - a row of the group whose id no record carries (soft-deleted or
        not) changes only by `isDeleted` becoming true;
      - a row of the group whose id some record carries is overwritten by
        the last such record, so `isDeleted: false` resurrects it. */
  lemma BulkSpec(t: Table, gid: nat, recs: seq<Record>)
    requires gid != 0
    requires AllNamed(recs)
    ensures Bulk(t, gid, Some(recs)).result.Ok?
    ensures var t' := Bulk(t, gid, Some(recs)).table;
      var ins := Inserts(recs, ExistingIds(t, gid));
      && t'.nextId == t.nextId + |ins|
      && (forall k :: k in t'.rows <==> k in t.rows || t.nextId <= k < t'.nextId)
      && (forall k | k in t.rows && t.rows[k].groupId != gid :: t'.rows[k] == t.rows[k])
      && (forall k | k in t.rows && t.rows[k].groupId == gid && k !in IncomingIds(recs) ::
            t'.rows[k] == t.rows[k].(isDeleted := true))
      && (forall k | k in t.rows && t.rows[k].groupId == gid && LastIndex(recs, k).Some? ::
            t'.rows[k] == NewRow(gid, recs[LastIndex(recs, k).value].fields))
      && (forall j | t.nextId <= j < t'.nextId :: t'.rows[j] == NewRow(gid, ins[j - t.nextId].fields))
  {
    var existing := ExistingIds(t, gid);
    var t0 := SoftDeleteAll(t, existing - IncomingIds(recs));
    ApplySpec(t0, gid, existing, recs);
    var t' := Apply(t0, gid, existing, recs).value;
    assert Bulk(t, gid, Some(recs)).table == t';
    forall k | k in t.rows && t.rows[k].groupId == gid && k !in IncomingIds(recs)
      ensures t'.rows[k] == t.rows[k].(isDeleted := true)
    {
      assert LastIndex(recs, k).None?;
    }
  }

  /** `BulkSpec` for one id that existed before: a row of another group
      stays, a row of the group no record carries is soft-deleted, and one
      some record carries is overwritten by the last such record. */
  lemma BulkAt(t: Table, gid: nat, recs: seq<Record>, k: nat)
    requires gid != 0 && AllNamed(recs) && k in t.rows
    ensures var t' := Bulk(t, gid, Some(recs)).table;
      && k in t'.rows
      && (t.rows[k].groupId != gid ==> t'.rows[k] == t.rows[k])
      && (t.rows[k].groupId == gid && LastIndex(recs, k).None? ==> t'.rows[k] == t.rows[k].(isDeleted := true))
      && (t.rows[k].groupId == gid && LastIndex(recs, k).Some? ==>
            t'.rows[k] == NewRow(gid, recs[LastIndex(recs, k).value].fields))
  {
    BulkSpec(t, gid, recs);
  }

  /** `BulkSpec` for one id that did not exist before: it exists afterwards
      exactly when it is one of the ids issued, and then holds the
      inserting record of its rank. */
  lemma BulkFreshAt(t: Table, gid: nat, recs: seq<Record>, k: nat)
    requires gid != 0 && AllNamed(recs) && k !in t.rows
    ensures var t' := Bulk(t, gid, Some(recs)).table;
      var ins := Inserts(recs, ExistingIds(t, gid));
      && (k in t'.rows <==> t.nextId <= k < t.nextId + |ins|)
      && (k in t'.rows ==> t'.rows[k] == NewRow(gid, ins[k - t.nextId].fields))
  {
    BulkSpec(t, gid, recs);
  }

  /** Reconciling with an empty list soft-deletes every row of the group
      and removes nothing. */
  lemma BulkEmpty(t: Table, gid: nat)
    requires gid != 0
    ensures var r := Bulk(t, gid, Some([]));
      && r.result.Ok?
      && r.table.rows.Keys == t.rows.Keys
      && (forall k | k in t.rows && t.rows[k].groupId == gid :: r.table.rows[k] == t.rows[k].(isDeleted := true))
      && (forall k | k in t.rows && t.rows[k].groupId != gid :: r.table.rows[k] == t.rows[k])
  {
    BulkSpec(t, gid, []);
  }
  /** A failed bulk save leaves every row as it was, and the counter where
      the loop had taken it when it reached the first nameless record: the
      records before it all ran, overwriting or inserting. */
  lemma BulkRollback(t: Table, gid: nat, recs: seq<Record>)
    requires gid != 0 && !AllNamed(recs)
    ensures var r := Bulk(t, gid, Some(recs));
      var existing := ExistingIds(t, gid);
      var t0 := SoftDeleteAll(t, existing - IncomingIds(recs));
      var n := FirstUnnamed(recs);
      && r.result == Err(StoreFailure)
      && r.table.rows == t.rows
      && Apply(t0, gid, existing, recs[..n]).Ok?
      && r.table.nextId == Apply(t0, gid, existing, recs[..n]).value.nextId
  {
    var existing := ExistingIds(t, gid);
    var t0 := SoftDeleteAll(t, existing - IncomingIds(recs));
    var n := FirstUnnamed(recs);
    var pre := recs[..n];
    assert AllNamed(pre) by {
      forall i | 0 <= i < |pre|
        ensures pre[i].fields.name.Some?
      {
        assert pre[i] == recs[i];
      }
    }
    assert OwnedBy(t0, gid, existing);
    ApplySpec(t0, gid, existing, pre);
  }

  /** How many of `recs` insert a row: the length of `Inserts`, counted
      without building the list, so that rank arithmetic does not bring the
      list's quantified contract into the proofs (`InsertCountIs` relates
      the two). */
  function InsertCount(recs: seq<Record>, existing: set<nat>): nat {
    if recs == [] then 0
    else InsertCount(recs[..|recs| - 1], existing) + (if IsUpdate(recs[|recs| - 1], existing) then 0 else 1)
  }

  /** The count is the length of the list of inserting records. */
  lemma {:induction false} InsertCountIs(recs: seq<Record>, existing: set<nat>)
    ensures InsertCount(recs, existing) == |Inserts(recs, existing)|
    decreases |recs|
  {
    if recs != [] {
      InsertCountIs(recs[..|recs| - 1], existing);
      if IsUpdate(recs[|recs| - 1], existing) {
        InsertsSkipUpdate(recs, existing);
      } else {
        InsertsTakeInsert(recs, existing);
      }
    }
  }

  /** The records a client sends again after a successful bulk save: each
      overwriting record as it was, and each inserting record carrying the
      id its row received, `base` plus the number of inserting records
      before it. */
  function Resolve(recs: seq<Record>, existing: set<nat>, base: nat): (r: seq<Record>)
    ensures |r| == |recs|
    ensures forall i {:trigger r[i]} | 0 <= i < |recs| :: r[i].fields == recs[i].fields
    ensures forall i {:trigger r[i]} | 0 <= i < |recs| && IsUpdate(recs[i], existing) :: r[i] == recs[i]
    decreases |recs|
  {
    if recs == [] then []
    else
      var init := recs[..|recs| - 1];
      var x := recs[|recs| - 1];
      var p := Resolve(init, existing, base);
      assert forall i | 0 <= i < |init| :: init[i] == recs[i];
      p + [if IsUpdate(x, existing) then x else Record(base + InsertCount(init, existing), x.fields)]
  }

  /** Resolving a list resolves its prefix, then its last record. */
  lemma ResolveLast(recs: seq<Record>, existing: set<nat>, base: nat)
    requires recs != []
    ensures var init := recs[..|recs| - 1];
      var x := recs[|recs| - 1];
      Resolve(recs, existing, base) == Resolve(init, existing, base) +
        [if IsUpdate(x, existing) then x else Record(base + InsertCount(init, existing), x.fields)]
  {
  }

  /** A resolved inserting record carries `base` plus the number of
      inserting records before it. */
  lemma {:induction false} ResolveRank(recs: seq<Record>, existing: set<nat>, base: nat, i: nat)
    requires i < |recs| && !IsUpdate(recs[i], existing)
    ensures Resolve(recs, existing, base)[i].id == base + InsertCount(recs[..i], existing)
    decreases |recs|
  {
    var init := recs[..|recs| - 1];
    ResolveLast(recs, existing, base);
    if i < |init| {
      assert init[i] == recs[i] && init[..i] == recs[..i];
      ResolveRank(init, existing, base, i);
    }
  }

  /** The record of rank `InsertCount(recs[..i])` among the inserting
      records is the inserting record `i`. */
  lemma InsertsAtRank(recs: seq<Record>, existing: set<nat>, i: nat)
    requires i < |recs| && !IsUpdate(recs[i], existing)
    ensures var ins := Inserts(recs, existing);
      InsertCount(recs[..i], existing) < |ins| && ins[InsertCount(recs[..i], existing)] == recs[i]
  {
    var q := recs[..i + 1];
    assert q[..|q| - 1] == recs[..i];
    InsertsTakeInsert(q, existing);
    InsertCountIs(recs[..i], existing);
    InsertsPrefix(recs, existing, i + 1);
  }

  /** A resolved inserting record carries the id of the row it inserted:
      its offset from `base` indexes it among the inserting records. */
  lemma ResolveInsert(recs: seq<Record>, existing: set<nat>, base: nat, i: nat)
    requires i < |recs| && !IsUpdate(recs[i], existing)
    ensures var r := Resolve(recs, existing, base);
      var ins := Inserts(recs, existing);
      base <= r[i].id < base + |ins| && ins[r[i].id - base] == recs[i]
  {
    ResolveRank(recs, existing, base, i);
    InsertsAtRank(recs, existing, i);
  }

  /** The inserting records of a prefix are a prefix of the inserting
      records of the whole list. */
  lemma {:induction false} InsertsPrefix(recs: seq<Record>, existing: set<nat>, m: nat)
    requires m <= |recs|
    ensures Inserts(recs[..m], existing) <= Inserts(recs, existing)
    decreases |recs| - m
  {
    if m == |recs| {
      assert recs[..m] == recs;
    } else {
      var q := recs[..m + 1];
      assert q[..|q| - 1] == recs[..m];
      if IsUpdate(q[|q| - 1], existing) {
        InsertsSkipUpdate(q, existing);
      } else {
        InsertsTakeInsert(q, existing);
      }
      InsertsPrefix(recs, existing, m + 1);
    }
  }

  /** The count of inserting records never decreases along a list, and
      grows past an inserting record. */
  lemma {:induction false} InsertCountGrows(recs: seq<Record>, existing: set<nat>, i: nat, j: nat)
    requires i < j <= |recs|
    ensures InsertCount(recs[..i], existing) + (if IsUpdate(recs[i], existing) then 0 else 1) <= InsertCount(recs[..j], existing)
    decreases j - i
  {
    var q := recs[..j];
    assert q[..|q| - 1] == recs[..j - 1];
    if j > i + 1 {
      InsertCountGrows(recs, existing, i, j - 1);
    } else {
      assert q[|q| - 1] == recs[i];
    }
  }

  /** Resolved inserting records carry increasing ids. */
  lemma ResolveOrder(recs: seq<Record>, existing: set<nat>, base: nat, i: nat, j: nat)
    requires i < j < |recs| && !IsUpdate(recs[i], existing) && !IsUpdate(recs[j], existing)
    ensures var r := Resolve(recs, existing, base); r[i].id < r[j].id
  {
    ResolveRank(recs, existing, base, i);
    ResolveRank(recs, existing, base, j);
    InsertCountGrows(recs, existing, i, j);
  }

  /** Every rank below the count belongs to some inserting record. */
  lemma {:induction false} RankOf(recs: seq<Record>, existing: set<nat>, n: nat) returns (i: nat)
    requires n < InsertCount(recs, existing)
    ensures i < |recs| && !IsUpdate(recs[i], existing) && InsertCount(recs[..i], existing) == n
    decreases |recs|
  {
    var init := recs[..|recs| - 1];
    if !IsUpdate(recs[|recs| - 1], existing) && n == InsertCount(init, existing) {
      i := |recs| - 1;
    } else {
      i := RankOf(init, existing, n);
      assert init[i] == recs[i] && init[..i] == recs[..i];
    }
  }

  /** The last record carrying `k` is the one at `i` when none after it
      carries `k`. */
  lemma LastIndexIs(recs: seq<Record>, k: nat, i: nat)
    requires i < |recs| && recs[i].id == k
    requires forall j | i < j < |recs| :: recs[j].id != k
    ensures LastIndex(recs, k) == Some(i)
  {
  }

  /** A list of records none of which inserts inserts nothing. */
  lemma NoInserts(recs: seq<Record>, existing: set<nat>)
    requires forall i | 0 <= i < |recs| :: IsUpdate(recs[i], existing)
    ensures Inserts(recs, existing) == []
  {
  }

  /** After the first save every resolved record overwrites a row of the
      group: old ids stay in the group and every issued id holds a row of
      it. */
  lemma ResolvedUpdates(t: Table, gid: nat, recs: seq<Record>, i: nat)
    requires gid != 0 && AllNamed(recs) && i < |recs|
    ensures var existing := ExistingIds(t, gid);
      IsUpdate(Resolve(recs, existing, t.nextId)[i], ExistingIds(Bulk(t, gid, Some(recs)).table, gid))
  {
    var existing := ExistingIds(t, gid);
    var again := Resolve(recs, existing, t.nextId);
    var k := again[i].id;
    if IsUpdate(recs[i], existing) {
      BulkAt(t, gid, recs, k);
    } else {
      ResolveInsert(recs, existing, t.nextId, i);
      BulkFreshAt(t, gid, recs, k);
    }
  }

  /** For an id of the group older than every issued id, the resolved
      records name the same last record as the original ones. */
  lemma OldRecordLast(recs: seq<Record>, existing: set<nat>, base: nat, k: nat)
    requires k != 0 && k in existing && k < base
    ensures LastIndex(Resolve(recs, existing, base), k) == LastIndex(recs, k)
  {
    var again := Resolve(recs, existing, base);
    forall j | 0 <= j < |recs| && !IsUpdate(recs[j], existing)
      ensures again[j].id != k && recs[j].id != k
    {
      ResolveInsert(recs, existing, base, j);
    }
    match LastIndex(recs, k)
    case None =>
      assert forall j | 0 <= j < |recs| :: again[j].id != k;
    case Some(i) =>
      LastIndexIs(again, k, i);
  }

  /** The id issued to an inserting record is carried last by its
      resolved record, provided every overwriting record names an id below
      `base`. */
  lemma FreshLastAt(recs: seq<Record>, existing: set<nat>, base: nat, i: nat)
    requires i < |recs| && !IsUpdate(recs[i], existing)
    requires forall j | 0 <= j < |recs| && IsUpdate(recs[j], existing) :: recs[j].id < base
    ensures LastIndex(Resolve(recs, existing, base), base + InsertCount(recs[..i], existing)) == Some(i)
  {
    var again := Resolve(recs, existing, base);
    ResolveRank(recs, existing, base, i);
    forall j | i < j < |recs|
      ensures again[j].id != again[i].id
    {
      if IsUpdate(recs[j], existing) {
        assert again[j] == recs[j] && recs[j].id < base;
      } else {
        ResolveOrder(recs, existing, base, i, j);
      }
    }
    LastIndexIs(again, again[i].id, i);
  }

  /** The `n`-th inserting record, found by its rank. */
  lemma InsertedBy(recs: seq<Record>, existing: set<nat>, n: nat) returns (i: nat)
    requires n < |Inserts(recs, existing)|
    ensures i < |recs| && !IsUpdate(recs[i], existing) && InsertCount(recs[..i], existing) == n
    ensures Inserts(recs, existing)[n] == recs[i]
  {
    InsertCountIs(recs, existing);
    i := RankOf(recs, existing, n);
    InsertsAtRank(recs, existing, i);
  }

  /** A row that existed before the first save is left as it was by the
      second. */
  lemma IdempotentOld(t: Table, gid: nat, recs: seq<Record>, k: nat)
    requires gid != 0 && AllNamed(recs) && k in t.rows
    ensures var t1 := Bulk(t, gid, Some(recs)).table;
      var again := Resolve(recs, ExistingIds(t, gid), t.nextId);
      var t2 := Bulk(t1, gid, Some(again)).table;
      k in t1.rows && k in t2.rows && t2.rows[k] == t1.rows[k]
  {
    var existing := ExistingIds(t, gid);
    var t1 := Bulk(t, gid, Some(recs)).table;
    var again := Resolve(recs, existing, t.nextId);
    assert AllNamed(again);
    BulkAt(t, gid, recs, k);
    BulkAt(t1, gid, again, k);
    if t.rows[k].groupId == gid {
      OldRecordLast(recs, existing, t.nextId, k);
    }
  }

  /** Every overwriting record names an id below the counter. */
  lemma UpdatesBelow(t: Table, gid: nat, recs: seq<Record>)
    ensures forall j | 0 <= j < |recs| && IsUpdate(recs[j], ExistingIds(t, gid)) :: recs[j].id < t.nextId
  {
  }

  /** `row`, issued id `k`, holds the fields of inserting record `i`, whose
      rank among the inserting records is `k - base`. */
  predicate InsertedFrom(recs: seq<Record>, existing: set<nat>, base: nat, gid: nat, k: nat, i: nat, row: Row) {
    && AllNamed(recs)
    && i < |recs|
    && !IsUpdate(recs[i], existing)
    && base + InsertCount(recs[..i], existing) == k
    && row == NewRow(gid, recs[i].fields)
  }

  /** The row issued id `k` holds the inserting record of rank `k - base`. */
  lemma InsertedRow(recs: seq<Record>, existing: set<nat>, base: nat, gid: nat, k: nat, row: Row) returns (i: nat)
    requires AllNamed(recs) && base <= k < base + |Inserts(recs, existing)|
    requires row == NewRow(gid, Inserts(recs, existing)[k - base].fields)
    ensures InsertedFrom(recs, existing, base, gid, k, i, row)
  {
    i := InsertedBy(recs, existing, k - base);
  }

  /** Resending the inserting record with its issued id rewrites its row
      with the same fields, provided every overwriting record names an id
      below `base`. */
  lemma InsertedKept(recs: seq<Record>, existing: set<nat>, base: nat, gid: nat, k: nat, i: nat, row: Row)
    requires InsertedFrom(recs, existing, base, gid, k, i, row)
    requires forall j | 0 <= j < |recs| && IsUpdate(recs[j], existing) :: recs[j].id < base
    ensures var again := Resolve(recs, existing, base);
      LastIndex(again, k) == Some(i) && AllNamed(again) && row == NewRow(gid, again[i].fields)
  {
    FreshLastAt(recs, existing, base, i);
  }

  /** A row the first save inserted holds the fields of the inserting
      record of its rank. */
  lemma FreshRowSource(t: Table, gid: nat, recs: seq<Record>, k: nat) returns (i: nat)
    requires gid != 0 && AllNamed(recs) && k !in t.rows
    requires k in Bulk(t, gid, Some(recs)).table.rows
    ensures InsertedFrom(recs, ExistingIds(t, gid), t.nextId, gid, k, i, Bulk(t, gid, Some(recs)).table.rows[k])
  {
    var t1 := Bulk(t, gid, Some(recs)).table;
    BulkFreshAt(t, gid, recs, k);
    i := InsertedRow(recs, ExistingIds(t, gid), t.nextId, gid, k, t1.rows[k]);
  }

  /** A row the first save inserted is left as it was by the second. */
  lemma IdempotentFresh(t: Table, gid: nat, recs: seq<Record>, k: nat)
    requires gid != 0 && AllNamed(recs) && k !in t.rows
    requires k in Bulk(t, gid, Some(recs)).table.rows
    ensures var t1 := Bulk(t, gid, Some(recs)).table;
      var again := Resolve(recs, ExistingIds(t, gid), t.nextId);
      var t2 := Bulk(t1, gid, Some(again)).table;
      k in t2.rows && t2.rows[k] == t1.rows[k]
  {
    var existing := ExistingIds(t, gid);
    var t1 := Bulk(t, gid, Some(recs)).table;
    var i := FreshRowSource(t, gid, recs, k);
    UpdatesBelow(t, gid, recs);
    InsertedKept(recs, existing, t.nextId, gid, k, i, t1.rows[k]);
    BulkAt(t1, gid, Resolve(recs, existing, t.nextId), k);
  }

  /** `BulkSpec` for the ids alone: a successful save keeps every row and
      adds exactly the ids it issues. */
  lemma BulkKeys(t: Table, gid: nat, recs: seq<Record>)
    requires gid != 0 && AllNamed(recs)
    ensures var r := Bulk(t, gid, Some(recs));
      && r.result == Ok(())
      && r.table.nextId == t.nextId + |Inserts(recs, ExistingIds(t, gid))|
      && forall k :: k in r.table.rows <==> k in t.rows || t.nextId <= k < r.table.nextId
  {
    BulkSpec(t, gid, recs);
  }

  /** After the first save no resolved record inserts a row. */
  lemma ResolvedInsertNothing(t: Table, gid: nat, recs: seq<Record>)
    requires gid != 0 && AllNamed(recs)
    ensures var again := Resolve(recs, ExistingIds(t, gid), t.nextId);
      Inserts(again, ExistingIds(Bulk(t, gid, Some(recs)).table, gid)) == []
  {
    var again := Resolve(recs, ExistingIds(t, gid), t.nextId);
    var existing' := ExistingIds(Bulk(t, gid, Some(recs)).table, gid);
    forall i | 0 <= i < |again|
      ensures IsUpdate(again[i], existing')
    {
      ResolvedUpdates(t, gid, recs, i);
    }
    NoInserts(again, existing');
  }

  /** A successful reply whose table has the counter and the ids of `t`. */
  ghost predicate SameIds(t: Table, r: Reply<()>) {
    && r.result == Ok(())
    && r.table.nextId == t.nextId
    && forall k :: k in r.table.rows <==> k in t.rows
  }

  /** A save that inserts nothing succeeds, keeps the counter and adds no
      id. */
  lemma NoInsertKeepsIds(t: Table, gid: nat, recs: seq<Record>)
    requires gid != 0 && AllNamed(recs) && Inserts(recs, ExistingIds(t, gid)) == []
    ensures SameIds(t, Bulk(t, gid, Some(recs)))
  {
    BulkKeys(t, gid, recs);
  }

  /** The second save succeeds, keeps the counter and adds no id. */
  lemma IdempotentKeys(t: Table, gid: nat, recs: seq<Record>)
    requires gid != 0 && AllNamed(recs)
    ensures var t1 := Bulk(t, gid, Some(recs)).table;
      SameIds(t1, Bulk(t1, gid, Some(Resolve(recs, ExistingIds(t, gid), t.nextId))))
  {
    var t1 := Bulk(t, gid, Some(recs)).table;
    ResolvedInsertNothing(t, gid, recs);
    NoInsertKeepsIds(t1, gid, Resolve(recs, ExistingIds(t, gid), t.nextId));
  }

  /** Every row after the first save is left as it was by the second. */
  lemma IdempotentRows(t: Table, gid: nat, recs: seq<Record>)
    requires gid != 0 && AllNamed(recs)
    ensures var t1 := Bulk(t, gid, Some(recs)).table;
      var again := Resolve(recs, ExistingIds(t, gid), t.nextId);
      var t2 := Bulk(t1, gid, Some(again)).table;
      forall k | k in t1.rows :: k in t2.rows && t2.rows[k] == t1.rows[k]
  {
    var t1 := Bulk(t, gid, Some(recs)).table;
    forall k | k in t1.rows
      ensures var again := Resolve(recs, ExistingIds(t, gid), t.nextId);
        var t2 := Bulk(t1, gid, Some(again)).table;
        k in t2.rows && t2.rows[k] == t1.rows[k]
    {
      if k in t.rows {
        IdempotentOld(t, gid, recs, k);
      } else {
        IdempotentFresh(t, gid, recs, k);
      }
    }
  }

  /** Saving the same list again, each inserting record now carrying the id
      its row received, changes nothing: the second save overwrites every
      row with what the first wrote, soft-deletes only rows already
      soft-deleted, and inserts nothing. */
  lemma BulkIdempotent(t: Table, gid: nat, recs: seq<Record>)
    requires gid != 0 && AllNamed(recs)
    ensures var t1 := Bulk(t, gid, Some(recs)).table;
      var again := Resolve(recs, ExistingIds(t, gid), t.nextId);
      Bulk(t1, gid, Some(again)) == Reply(t1, Ok(()))
  {
    var t1 := Bulk(t, gid, Some(recs)).table;
    var again := Resolve(recs, ExistingIds(t, gid), t.nextId);
    IdempotentKeys(t, gid, recs);
    IdempotentRows(t, gid, recs);
    var r2 := Bulk(t1, gid, Some(again));
    SameTable(t1, r2.table);
  }

  /** Two tables with the same counter and the same row under every id are
      one table. */
  lemma SameTable(t1: Table, t2: Table)
    requires t2.nextId == t1.nextId
    requires forall k :: k in t2.rows <==> k in t1.rows
    requires forall k | k in t1.rows :: t2.rows[k] == t1.rows[k]
    ensures t2 == t1
  {
    assert t2.rows == t1.rows;
  }
}

=== FILE: fraction.dfy ===
/** The selection summary shown next to the box list: a vulgar-fraction
    glyph for small lists, `selected/total` otherwise. */
module Fraction {
  import MultiBox

  /** The vulgar-fraction characters the summary can show. */
  datatype Glyph = Half | Third | TwoThirds | Quarter | ThreeQuarters | Fifth | TwoFifths | ThreeFifths | FourFifths

  function Numerator(g: Glyph): nat {
    match g
    case Half => 1
    case Third => 1
    case TwoThirds => 2
    case Quarter => 1
    case ThreeQuarters => 3
    case Fifth => 1
    case TwoFifths => 2
    case ThreeFifths => 3
    case FourFifths => 4
  }

  function Denominator(g: Glyph): nat {
    match g
    case Half => 2
    case Third | TwoThirds => 3
    case Quarter | ThreeQuarters => 4
    case Fifth | TwoFifths | ThreeFifths | FourFifths => 5
  }

  /** What the summary shows: nothing, a glyph, or the text `selected/total`. */
  datatype Display = Blank | Symbol(glyph: Glyph) | Ratio(selected: int, total: int)

  /** The lookup table keyed by total, then by selected count; the full
      entries (`2/2`, …) are the same text the fallback produces. */
  const FractionMap: map<int, map<int, Display>> := map[
    1 := map[1 := Ratio(1, 1)],
    2 := map[1 := Symbol(Half), 2 := Ratio(2, 2)],
    3 := map[1 := Symbol(Third), 2 := Symbol(TwoThirds), 3 := Ratio(3, 3)],
    4 := map[1 := Symbol(Quarter), 2 := Symbol(Half), 3 := Symbol(ThreeQuarters), 4 := Ratio(4, 4)],
    5 := map[1 := Symbol(Fifth), 2 := Symbol(TwoFifths), 3 := Symbol(ThreeFifths), 4 := Symbol(FourFifths), 5 := Ratio(5, 5)]
  ]

  /** `getFraction`: blank for an empty list; a glyph exactly for a proper,
      non-zero fraction of at most five boxes, and then the glyph's value is
      `selected/total`; otherwise the plain `selected/total` text. */
  function GetFraction(selected: int, total: int): (r: Display)
    ensures r == Blank <==> total == 0
    ensures r.Symbol? <==> 1 <= selected < total <= 5
    ensures r.Symbol? ==> Numerator(r.glyph) * total == selected * Denominator(r.glyph)
    ensures r.Ratio? ==> r == Ratio(selected, total)
  {
    if total == 0 then Blank
    else if total <= 5 && total in FractionMap then
      if selected in FractionMap[total] then FractionMap[total][selected] else Ratio(selected, total)
    else Ratio(selected, total)
  }

  /** The summary of the editor state: with the counters in step with the
      boxes it is blank exactly for an empty list, and a glyph exactly when
      at most five boxes are shown and some but not all are selected. */
  lemma SummaryOfState(s: MultiBox.State)
    requires MultiBox.CountsAgree(s)
    ensures GetFraction(s.selectedCount, s.totalCount) == Blank <==> s.boxes == []
    ensures GetFraction(s.selectedCount, s.totalCount).Symbol? <==>
      && |s.boxes| <= 5
      && (exists i | 0 <= i < |s.boxes| :: s.boxes[i].isSelected)
      && (exists i | 0 <= i < |s.boxes| :: !s.boxes[i].isSelected)
  {
    MultiBox.SelectedInPositive(s.boxes);
    MultiBox.SelectedInShort(s.boxes);
  }
}

=== FILE: group_table.dfy ===
/** The `dbGroup` table and the groups router: create, rename, exact-name
    check, substring search and the delete that cascades a soft delete to
    the group's inputs. */
module GroupTable {
  import opened Text
  import opened Results
  import InputTable

  /** One row of `dbGroup`; the timestamps are not modelled. */
  datatype Group = Group(name: string)

  /** The table together with its auto-increment counter. */
  datatype Store = Store(rows: map<nat, Group>, nextId: nat)

  ghost predicate Valid(s: Store) {
    1 <= s.nextId && forall k | k in s.rows :: 1 <= k < s.nextId
  }

  type Table = s: Store | Valid(s) witness Store(map[], 1)

  /** What a handler leaves behind: the table after the request and the
      response it sends. */
  datatype Reply<+T> = Reply(table: Table, result: Result<T>)

  /** The invariant the handlers (and the unique key on `groupName`) keep:
      no two groups share a name. */
  ghost predicate UniqueNames(t: Table) {
    forall a, b | a in t.rows && b in t.rows && t.rows[a].name == t.rows[b].name :: a == b
  }

  /** Some group other than `except` is called `name`. */
  ghost predicate NameTaken(t: Table, name: string, except: nat) {
    exists k | k in t.rows :: k != except && t.rows[k].name == name
  }

  /** The lowest id in `[lo, hi)`, other than `except`, whose group is
      called `name`. */
  function FirstNamed(rows: map<nat, Group>, name: string, except: nat, lo: nat, hi: nat): (r: Option<nat>)
    ensures r.Some? ==> lo <= r.value < hi && r.value in rows && r.value != except && rows[r.value].name == name
    ensures r.None? ==> forall k | lo <= k < hi && k in rows && k != except :: rows[k].name != name
    decreases hi - lo
  {
    if hi <= lo then None
    else if lo in rows && lo != except && rows[lo].name == name then Some(lo)
    else FirstNamed(rows, name, except, lo + 1, hi)
  }

  /** `SELECT Id FROM dbGroup WHERE groupName = ? [AND Id != ?]`, first row. */
  function Lookup(t: Table, name: string, except: nat): (r: Option<nat>)
    ensures r.Some? <==> NameTaken(t, name, except)
    ensures r.Some? ==> r.value in t.rows && r.value != except && t.rows[r.value].name == name
  {
    FirstNamed(t.rows, name, except, 1, t.nextId)
  }

  /** `GET /:id`: the group stored under `id`, or not-found when there is
      none. */
  function Get(t: Table, id: nat): (r: Result<Group>)
    ensures r.Ok? <==> id in t.rows
    ensures r.Ok? ==> r.value == t.rows[id]
    ensures r.Err? ==> r.error == NotFound
  {
    if id in t.rows then Ok(t.rows[id]) else Err(NotFound)
  }

  /** The answer of `GET /check/:name`. */
  datatype Check = Check(exists_: bool, id: Option<nat>)

  /** `GET /check/:name`: `exists` holds exactly when some group has
      exactly that name, and `id` is such a group's id, null otherwise. */
  function CheckName(t: Table, name: string): (r: Check)
    ensures r.exists_ <==> exists k | k in t.rows :: t.rows[k].name == name
    ensures r.id.Some? <==> r.exists_
    ensures r.id.Some? ==> r.id.value in t.rows && t.rows[r.id.value].name == name
  {
    var found := Lookup(t, name, 0);
    Check(found.Some?, found)
  }

  /** With unique names, the id the check reports is the one group that
      carries the name. */
  lemma CheckFindsTheOwner(t: Table, k: nat)
    requires UniqueNames(t)
    requires k in t.rows
    ensures CheckName(t, t.rows[k].name) == Check(true, Some(k))
  {
  }

  /** The outcome of a write the unique key on `groupName` guards:
      done, or refused with `ER_DUP_ENTRY`. */
  datatype Write<+T> = Done(value: T) | DupEntry

  /** `INSERT INTO dbGroup (groupName)`, refused when the name is taken. */
  function InsertRow(t: Table, name: string): (r: Write<(Table, nat)>)
    ensures r.DupEntry? <==> NameTaken(t, name, 0)
    ensures r.Done? ==> r.value.1 !in t.rows && r.value.0.rows == t.rows[r.value.1 := Group(name)]
  {
    if Lookup(t, name, 0).Some? then DupEntry
    else Done((Store(t.rows[t.nextId := Group(name)], t.nextId + 1), t.nextId))
  }

  /** `UPDATE dbGroup SET groupName = ? WHERE Id = ?`: refused when another
      group has the name; otherwise reports whether a row matched. */
  function RenameRow(t: Table, id: nat, name: string): (r: Write<(Table, bool)>)
    ensures r.DupEntry? <==> id in t.rows && NameTaken(t, name, id)
    ensures r.Done? ==> (r.value.1 <==> id in t.rows)
    ensures r.Done? && r.value.1 ==> r.value.0.rows == t.rows[id := Group(name)]
    ensures r.Done? && !r.value.1 ==> r.value.0 == t
  {
    if id !in t.rows then Done((t, false))
    else if Lookup(t, name, id).Some? then DupEntry
    else Done((Store(t.rows[id := Group(name)], t.nextId), true))
  }

  /** A name that is missing or only white space. */
  predicate Blank(name: Option<string>) {
    name.None? || Trim(name.value) == []
  }

  /** `POST /`: a blank name is rejected before any lookup; a trimmed name
      some group already has is rejected, whether the pre-check or the
      unique key catches it; otherwise a fresh group with the trimmed name
      is added. On every error the table is unchanged; the invariant is
      kept. */
  function Create(t: Table, groupName: Option<string>): (r: Reply<(nat, string)>)
    ensures r.result.Err? ==> r.table == t
    ensures r.result == Err(Invalid) <==> Blank(groupName)
    ensures r.result == Err(Duplicate) <==> !Blank(groupName) && NameTaken(t, Trim(groupName.value), 0)
    ensures r.result.Ok? <==> !Blank(groupName) && !NameTaken(t, Trim(groupName.value), 0)
    ensures r.result.Ok? ==>
      var (id, name) := r.result.value;
      && name == Trim(groupName.value)
      && id !in t.rows
      && r.table.rows == t.rows[id := Group(name)]
    ensures UniqueNames(t) ==> UniqueNames(r.table)
  {
    if Blank(groupName) then Reply(t, Err(Invalid))
    else
      var name := Trim(groupName.value);
      if Lookup(t, name, 0).Some? then Reply(t, Err(Duplicate))
      else
        match InsertRow(t, name)
        case DupEntry => Reply(t, Err(Duplicate))
        case Done((t', id)) => Reply(t', Ok((id, name)))
  }

  /** Creating the same name twice (up to surrounding white space): the
      second attempt is a conflict. */
  lemma CreateTwiceConflicts(t: Table, a: string, b: string)
    requires Trim(a) == Trim(b)
    requires Create(t, Some(a)).result.Ok?
    ensures Create(Create(t, Some(a)).table, Some(b)).result == Err(Duplicate)
  {
    var r := Create(t, Some(a));
    var id := r.result.value.0;
    assert id in r.table.rows && r.table.rows[id].name == Trim(b);
  }

  /** `PUT /:id`: checked in order: a blank name (400), a name another
      group has (400), an id no group has (404); otherwise only that group
      is renamed to the trimmed name. On every error the table is
      unchanged; the invariant is kept. */
  function Rename(t: Table, id: nat, groupName: Option<string>): (r: Reply<(nat, string)>)
    ensures r.result.Err? ==> r.table == t
    ensures r.result == Err(Invalid) <==> Blank(groupName)
    ensures r.result == Err(Duplicate) <==> !Blank(groupName) && NameTaken(t, Trim(groupName.value), id)
    ensures r.result == Err(NotFound) <==>
      !Blank(groupName) && !NameTaken(t, Trim(groupName.value), id) && id !in t.rows
    ensures r.result.Ok? <==>
      !Blank(groupName) && !NameTaken(t, Trim(groupName.value), id) && id in t.rows
    ensures r.result.Ok? ==>
      && r.result.value == (id, Trim(groupName.value))
      && r.table.rows == t.rows[id := Group(Trim(groupName.value))]
    ensures UniqueNames(t) ==> UniqueNames(r.table)
  {
    if Blank(groupName) then Reply(t, Err(Invalid))
    else
      var name := Trim(groupName.value);
      if Lookup(t, name, id).Some? then Reply(t, Err(Duplicate))
      else
        match RenameRow(t, id, name)
        case DupEntry => Reply(t, Err(Duplicate))
        case Done((t', matched)) =>
          if !matched then Reply(t, Err(NotFound)) else Reply(t', Ok((id, name)))
  }

  /** The conflict check leaves the group itself out, so renaming a group
      to its own name succeeds and changes nothing. */
  lemma RenameToOwnName(t: Table, id: nat)
    requires UniqueNames(t)
    requires id in t.rows && t.rows[id].name != [] && Trim(t.rows[id].name) == t.rows[id].name
    ensures Rename(t, id, Some(t.rows[id].name)) == Reply(t, Ok((id, t.rows[id].name)))
  {
    var name := t.rows[id].name;
    assert !Blank(Some(name));
    assert !NameTaken(t, name, id);
    assert Lookup(t, name, id).None?;
    assert Group(name) == t.rows[id];
    SelfUpdate(t.rows, id);
    assert RenameRow(t, id, name) == Done((t, true));
  }

  /** Storing a key's own value again leaves a map as it was. */
  lemma SelfUpdate<K, V>(m: map<K, V>, k: K)
    requires k in m
    ensures m[k := m[k]] == m
  {
  }

  /** Because the conflict check runs first, renaming a missing id to a
      taken name reports the conflict, not 404. */
  lemma RenameConflictBeforeNotFound(t: Table, id: nat, other: nat)
    requires id !in t.rows && other in t.rows && t.rows[other].name != []
    requires Trim(t.rows[other].name) == t.rows[other].name
    ensures Rename(t, id, Some(t.rows[other].name)).result == Err(Duplicate)
  {
  }

  /** The name qualifies for a suggestion: contains the fragment and is not
      equal to it. */
  predicate Suggests(name: string, fragment: string) {
    Contains(name, fragment) && name != fragment
  }

  ghost function Names(rows: map<nat, Group>): set<string> {
    set k | k in rows :: rows[k].name
  }

  /** No two rows of `rows` share a name. */
  ghost predicate UniqueIn(rows: map<nat, Group>) {
    forall a, b | a in rows && b in rows && rows[a].name == rows[b].name :: a == b
  }

  /** Some group with an id in `[lo, hi)` is called `name`. */
  ghost predicate NamedIn(rows: map<nat, Group>, lo: nat, hi: nat, name: string) {
    exists k | lo <= k < hi && k in rows :: rows[k].name == name
  }

  /** Every name of `r` is held by a group with an id in `[lo, hi)`. */
  ghost predicate AllNamedIn(rows: map<nat, Group>, lo: nat, hi: nat, r: seq<string>) {
    forall i | 0 <= i < |r| :: NamedIn(rows, lo, hi, r[i])
  }

  /** No name occurs twice in `r`. */
  ghost predicate NoRepeats(r: seq<string>) {
    forall i, j | 0 <= i < j < |r| :: r[i] != r[j]
  }

  /** A name held above `lo` is held from `lo` on. */
  lemma NamedInWider(rows: map<nat, Group>, lo: nat, hi: nat, name: string)
    requires NamedIn(rows, lo + 1, hi, name)
    ensures NamedIn(rows, lo, hi, name)
  {
    var k :| lo + 1 <= k < hi && k in rows && rows[k].name == name;
  }

  /** With unique names, a name held above `lo` is not the name at `lo`. */
  lemma NamedAbove(rows: map<nat, Group>, lo: nat, hi: nat, name: string)
    requires UniqueIn(rows) && lo in rows && NamedIn(rows, lo + 1, hi, name)
    ensures name != rows[lo].name
  {
    var k :| lo + 1 <= k < hi && k in rows && rows[k].name == name;
  }

  /** Collects, in id order from `lo`, the names that qualify, at most
      `limit` of them. */
  function Collect(rows: map<nat, Group>, fragment: string, lo: nat, hi: nat, limit: nat): (r: seq<string>)
    ensures |r| <= limit
    ensures forall i | 0 <= i < |r| :: Suggests(r[i], fragment) && r[i] in Names(rows)
    ensures |r| < limit ==>
      forall k | lo <= k < hi && k in rows && Suggests(rows[k].name, fragment) :: rows[k].name in r
    decreases hi - lo
  {
    if hi <= lo || limit == 0 then []
    else if lo in rows && Suggests(rows[lo].name, fragment) then
      [rows[lo].name] + Collect(rows, fragment, lo + 1, hi, limit - 1)
    else Collect(rows, fragment, lo + 1, hi, limit)
  }

  /** Every collected name is held by a group with an id in `[lo, hi)`. */
  lemma {:induction false} CollectNamed(rows: map<nat, Group>, fragment: string, lo: nat, hi: nat, limit: nat)
    ensures AllNamedIn(rows, lo, hi, Collect(rows, fragment, lo, hi, limit))
    decreases hi - lo
  {
    if hi > lo && limit > 0 {
      var hit := lo in rows && Suggests(rows[lo].name, fragment);
      var lim: nat := if hit then limit - 1 else limit;
      var tail := Collect(rows, fragment, lo + 1, hi, lim);
      CollectNamed(rows, fragment, lo + 1, hi, lim);
      assert AllNamedIn(rows, lo + 1, hi, tail);
      forall i | 0 <= i < |tail|
        ensures NamedIn(rows, lo, hi, tail[i])
      {
        NamedInWider(rows, lo, hi, tail[i]);
      }
      if hit {
        assert NamedIn(rows, lo, hi, rows[lo].name);
        assert Collect(rows, fragment, lo, hi, limit) == [rows[lo].name] + tail;
      }
    }
  }

  /** With unique names, no name is collected twice. */
  lemma {:induction false} CollectDistinct(rows: map<nat, Group>, fragment: string, lo: nat, hi: nat, limit: nat)
    ensures UniqueIn(rows) ==> NoRepeats(Collect(rows, fragment, lo, hi, limit))
    decreases hi - lo
  {
    if hi > lo && limit > 0 && UniqueIn(rows) {
      var hit := lo in rows && Suggests(rows[lo].name, fragment);
      var lim: nat := if hit then limit - 1 else limit;
      var tail := Collect(rows, fragment, lo + 1, hi, lim);
      CollectDistinct(rows, fragment, lo + 1, hi, lim);
      assert NoRepeats(tail);
      if hit {
        CollectNamed(rows, fragment, lo + 1, hi, lim);
        assert AllNamedIn(rows, lo + 1, hi, tail);
        forall i | 0 <= i < |tail|
          ensures tail[i] != rows[lo].name
        {
          NamedAbove(rows, lo, hi, tail[i]);
        }
        var r := [rows[lo].name] + tail;
        assert Collect(rows, fragment, lo, hi, limit) == r;
        forall i, j | 0 <= i < j < |r|
          ensures r[i] != r[j]
        {
          assert r[j] == tail[j - 1];
          if i > 0 {
            assert r[i] == tail[i - 1];
          }
        }
      }
    }
  }

  /** `GET /search/:name`: at most 5 group names, each containing the
      fragment and different from it; when fewer than 5 come back, every
      qualifying name is among them; with unique names, none comes back
      twice. */
  function Search(t: Table, fragment: string): (r: seq<string>)
    ensures |r| <= 5
    ensures forall i | 0 <= i < |r| :: Contains(r[i], fragment) && r[i] != fragment && r[i] in Names(t.rows)
    ensures |r| < 5 ==> forall k | k in t.rows && Suggests(t.rows[k].name, fragment) :: t.rows[k].name in r
    ensures UniqueNames(t) ==> forall i, j | 0 <= i < j < |r| :: r[i] != r[j]
  {
    assert UniqueNames(t) ==> UniqueIn(t.rows);
    CollectDistinct(t.rows, fragment, 1, t.nextId, 5);
    assert UniqueNames(t) ==> NoRepeats(Collect(t.rows, fragment, 1, t.nextId, 5));
    Collect(t.rows, fragment, 1, t.nextId, 5)
  }

  /** `DELETE /:id`: first every input of the group is soft-deleted (no
      transaction guards this), then the group row is removed; an id no
      group has gives 404 after the inputs were already flagged. */
  function Delete(t: Table, inputs: InputTable.Table, id: nat): (r: (Table, InputTable.Table, Result<()>))
    ensures r.2.Ok? <==> id in t.rows
    ensures r.2.Err? ==> r.2.error == NotFound && r.0 == t
    ensures r.2.Ok? ==> r.0.rows == t.rows - {id} && r.0.nextId == t.nextId
    ensures r.1.nextId == inputs.nextId && r.1.rows.Keys == inputs.rows.Keys
    ensures forall k | k in inputs.rows && inputs.rows[k].groupId == id ::
      r.1.rows[k] == inputs.rows[k].(isDeleted := true)
    ensures forall k | k in inputs.rows && inputs.rows[k].groupId != id :: r.1.rows[k] == inputs.rows[k]
    ensures UniqueNames(t) ==> UniqueNames(r.0)
  {
    var inputs' := InputTable.SoftDeleteAll(inputs, set k | k in inputs.rows && inputs.rows[k].groupId == id);
    if id !in t.rows then (t, inputs', Err(NotFound))
    else (Store(t.rows - {id}, t.nextId), inputs', Ok(()))
  }

  /** Deleting an id no group has still soft-deletes the inputs stored
      under it: the response is 404 but the input table has changed. */
  lemma DeleteMissingStillFlagsInputs(t: Table, inputs: InputTable.Table, id: nat, k: nat)
    requires id !in t.rows
    requires k in inputs.rows && inputs.rows[k].groupId == id && !inputs.rows[k].isDeleted
    ensures var r := Delete(t, inputs, id); r.2 == Err(NotFound) && r.1 != inputs
  {
    var r := Delete(t, inputs, id);
    assert r.1.rows[k].isDeleted;
  }
}

=== FILE: input_table.dfy ===
/** The `dbInputs` table and the single-row handlers of the inputs router:
    create (`POST /`), partial update (`PUT /:id`), soft delete
    (`DELETE /:id`), and the listing of a group's rows ordered by
    `(orderNum, Id)`. */
module InputTable {
  import opened Text
  import opened Results

  /** One row of `dbInputs`; the timestamps are not modelled. */
  datatype Row = Row(groupId: nat, name: string, isSelected: bool, isDeleted: bool, orderNum: int)

  /** The table together with its auto-increment counter. */
  datatype Store = Store(rows: map<nat, Row>, nextId: nat)

  /** Ids are handed out by a counter that starts at 1 and never reuses a
      value, so every stored id lies below the counter. */
  ghost predicate Valid(s: Store) {
    1 <= s.nextId && forall k | k in s.rows :: 1 <= k < s.nextId
  }

  type Table = s: Store | Valid(s) witness Store(map[], 1)

  /** A row as a listing returns it: its id and its columns. */
  datatype Entry = Entry(id: nat, row: Row)

  /** What a handler leaves behind: the table after the request and the
      response it sends. */
  datatype Reply<+T> = Reply(table: Table, result: Result<T>)

  /** The writable fields of a request body; `None` is a field the body
      leaves undefined. */
  datatype Fields = Fields(name: Option<string>, isSelected: Option<bool>, isDeleted: Option<bool>, orderNum: Option<int>)

  /** The row an INSERT with these fields writes under `groupId`: the
      trimmed name, and false, false and 0 for the fields left out. */
  function NewRow(groupId: nat, f: Fields): (r: Row)
    requires f.name.Some?
    ensures r.groupId == groupId && r.name == Trim(f.name.value)
    ensures r.isSelected <==> f.isSelected == Some(true)
    ensures r.isDeleted <==> f.isDeleted == Some(true)
    ensures f.orderNum.None? ==> r.orderNum == 0
    ensures f.orderNum.Some? ==> r.orderNum == f.orderNum.value
  {
    Row(groupId, Trim(f.name.value), f.isSelected.GetOr(false), f.isDeleted.GetOr(false), f.orderNum.GetOr(0))
  }

  /** INSERT: the row goes under the next counter value, which no stored
      row carries. */
  function Insert(t: Table, row: Row): (r: (Table, nat))
    ensures 1 <= r.1 && r.1 !in t.rows
    ensures r.0.rows == t.rows[r.1 := row] && r.0.nextId == t.nextId + 1
  {
    (Store(t.rows[t.nextId := row], t.nextId + 1), t.nextId)
  }

  /** `UPDATE dbInputs SET isDeleted = TRUE WHERE Id IN (...)`: flags every
      row whose id is in `doomed`; nothing is removed. */
  function SoftDeleteAll(t: Table, doomed: set<nat>): (r: Table)
    ensures r.nextId == t.nextId && r.rows.Keys == t.rows.Keys
    ensures forall k | k in t.rows && k in doomed :: r.rows[k] == t.rows[k].(isDeleted := true)
    ensures forall k | k in t.rows && k !in doomed :: r.rows[k] == t.rows[k]
  {
    Store(map k | k in t.rows :: if k in doomed then t.rows[k].(isDeleted := true) else t.rows[k], t.nextId)
  }

  /** `POST /`: a missing group id, or a name that is missing or blank
      after trimming, is rejected with the table unchanged; otherwise one
      fresh row is added and nothing else changes. */
  function Create(t: Table, groupId: nat, f: Fields): (r: Reply<Entry>)
    ensures r.result.Err? <==> groupId == 0 || f.name.None? || Trim(f.name.value) == []
    ensures r.result.Err? ==> r.result.error == Invalid && r.table == t
    ensures r.result.Ok? ==>
      var e := r.result.value;
      && e.id !in t.rows
      && r.table.rows == t.rows[e.id := e.row]
      && e.row.groupId == groupId && e.row.name == Trim(f.name.value) && e.row.name != []
      && (e.row.isSelected <==> f.isSelected == Some(true))
      && (e.row.isDeleted <==> f.isDeleted == Some(true))
      && e.row.orderNum == (if f.orderNum.Some? then f.orderNum.value else 0)
  {
    if groupId == 0 || f.name.None? || Trim(f.name.value) == [] then
      Reply(t, Err(Invalid))
    else
      var row := NewRow(groupId, f);
      var (t', id) := Insert(t, row);
      Reply(t', Ok(Entry(id, row)))
  }

  /** The body of a `PUT` names no field at all. */
  predicate NoFields(f: Fields) {
    f.name.None? && f.isSelected.None? && f.isDeleted.None? && f.orderNum.None?
  }

  /** The row after `UPDATE ... SET` of the supplied fields. */
  function Patch(row: Row, f: Fields): Row {
    Row(row.groupId,
        if f.name.Some? then Trim(f.name.value) else row.name,
        f.isSelected.GetOr(row.isSelected),
        f.isDeleted.GetOr(row.isDeleted),
        f.orderNum.GetOr(row.orderNum))
  }

  /** `PUT /:id`: an empty body is rejected before the table is consulted,
      an unknown id gives 404; otherwise exactly the supplied columns of
      that one row change, the name trimmed. Note that a supplied name may
      trim to the empty string: this handler does not reject it. */
  function Update(t: Table, id: nat, f: Fields): (r: Reply<()>)
    ensures r.result.Err? ==> r.table == t
    ensures NoFields(f) ==> r.result == Err(Invalid)
    ensures !NoFields(f) && id !in t.rows ==> r.result == Err(NotFound)
    ensures !NoFields(f) && id in t.rows ==>
      && r.result.Ok?
      && r.table.nextId == t.nextId
      && r.table.rows.Keys == t.rows.Keys
      && (forall k | k in t.rows && k != id :: r.table.rows[k] == t.rows[k])
      && var old_ := t.rows[id]; var new_ := r.table.rows[id];
      && new_.groupId == old_.groupId
      && new_.name == (if f.name.Some? then Trim(f.name.value) else old_.name)
      && new_.isSelected == (if f.isSelected.Some? then f.isSelected.value else old_.isSelected)
      && new_.isDeleted == (if f.isDeleted.Some? then f.isDeleted.value else old_.isDeleted)
      && new_.orderNum == (if f.orderNum.Some? then f.orderNum.value else old_.orderNum)
  {
    if NoFields(f) then Reply(t, Err(Invalid))
    else if id !in t.rows then Reply(t, Err(NotFound))
    else Reply(Store(t.rows[id := Patch(t.rows[id], f)], t.nextId), Ok(()))
  }

  /** Patching twice with the same fields is patching once. */
  lemma PatchIdempotent(row: Row, f: Fields)
    ensures Patch(Patch(row, f), f) == Patch(row, f)
  {
    var p := Patch(row, f);
    if f.name.Some? {
      TrimIdempotent(f.name.value);
      assert p.name == Trim(f.name.value);
      assert Patch(p, f).name == Trim(p.name);
    }
    assert Patch(p, f).isSelected == p.isSelected;
    assert Patch(p, f).isDeleted == p.isDeleted;
    assert Patch(p, f).orderNum == p.orderNum;
  }

  /** Sending the same partial update twice leaves the table as the first
      one did, and the second is also answered with success. */
  lemma UpdateIdempotent(t: Table, id: nat, f: Fields)
    ensures Update(Update(t, id, f).table, id, f) == Update(t, id, f)
  {
    if !NoFields(f) && id in t.rows {
      var row := Patch(t.rows[id], f);
      var m := t.rows[id := row];
      PatchIdempotent(t.rows[id], f);
      assert m[id := Patch(m[id], f)] == m;
    }
  }

  /** `DELETE /:id`: sets only `isDeleted` of the matching row; 404 and an
      unchanged table when no row has the id. */
  function Delete(t: Table, id: nat): (r: Reply<()>)
    ensures r.result.Ok? <==> id in t.rows
    ensures r.result.Err? ==> r.result.error == NotFound && r.table == t
    ensures r.result.Ok? ==>
      r.table.nextId == t.nextId && r.table.rows == t.rows[id := t.rows[id].(isDeleted := true)]
  {
    if id !in t.rows then Reply(t, Err(NotFound))
    else Reply(SoftDeleteAll(t, {id}), Ok(()))
  }

  /** A soft-deleted row still matches its id, so deleting it again
      succeeds and changes nothing. */
  lemma DeleteTwice(t: Table, id: nat)
    requires id in t.rows
    ensures Delete(Delete(t, id).table, id) == Delete(t, id)
  {
    var t1 := Delete(t, id).table;
    assert t1.rows[id := t1.rows[id].(isDeleted := true)] == t1.rows;
  }

  /** The listing order: `ORDER BY orderNum ASC, Id ASC`. */
  predicate Before(a: Entry, b: Entry) {
    a.row.orderNum < b.row.orderNum || (a.row.orderNum == b.row.orderNum && a.id < b.id)
  }

  ghost predicate Sorted(es: seq<Entry>) {
    forall i, j | 0 <= i < j < |es| :: Before(es[i], es[j])
  }

  /** The rows of group `gid` whose ids are below `hi`, in id order. */
  function GroupEntries(rows: map<nat, Row>, gid: nat, hi: nat): (r: seq<Entry>)
    ensures forall i | 0 <= i < |r| :: r[i].id < hi && r[i].id in rows && rows[r[i].id] == r[i].row && r[i].row.groupId == gid
    ensures forall k | k in rows && k < hi && rows[k].groupId == gid :: Entry(k, rows[k]) in r
    ensures forall i, j | 0 <= i < j < |r| :: r[i].id < r[j].id
  {
    if hi == 0 then []
    else
      var p := GroupEntries(rows, gid, hi - 1);
      if hi - 1 in rows && rows[hi - 1].groupId == gid then p + [Entry(hi - 1, rows[hi - 1])] else p
  }

  /** Inserts `x` into a sorted list before the first entry it precedes. */
  function InsertSorted(x: Entry, es: seq<Entry>): (r: seq<Entry>)
    requires Sorted(es)
    requires forall i | 0 <= i < |es| :: es[i].id != x.id
    ensures Sorted(r)
    ensures multiset(r) == multiset(es) + multiset{x}
    ensures forall i | 0 <= i < |r| :: r[i] == x || r[i] in es
  {
    if es == [] then [x]
    else if Before(x, es[0]) then
      InsertFront(x, es);
      [x] + es
    else
      var rest := InsertSorted(x, es[1..]);
      InsertBehind(x, es, rest);
      [es[0]] + rest
  }

  /** `x` goes in front of a sorted list whose head it precedes. */
  lemma InsertFront(x: Entry, es: seq<Entry>)
    requires Sorted(es) && es != [] && Before(x, es[0])
    ensures Sorted([x] + es)
  {
    var r := [x] + es;
    forall i, j | 0 <= i < j < |r|
      ensures Before(r[i], r[j])
    {
      if i == 0 && j > 1 {
        assert Before(es[0], es[j - 1]);
      }
    }
  }

  /** The head of a sorted list stays in front of `x` inserted behind it. */
  lemma InsertBehind(x: Entry, es: seq<Entry>, rest: seq<Entry>)
    requires Sorted(es) && es != [] && !Before(x, es[0]) && x.id != es[0].id
    requires Sorted(rest) && multiset(rest) == multiset(es[1..]) + multiset{x}
    requires forall i | 0 <= i < |rest| :: rest[i] == x || rest[i] in es[1..]
    ensures Sorted([es[0]] + rest)
    ensures multiset([es[0]] + rest) == multiset(es) + multiset{x}
    ensures forall i | 0 <= i < |[es[0]] + rest| :: ([es[0]] + rest)[i] == x || ([es[0]] + rest)[i] in es
  {
    assert es == [es[0]] + es[1..];
    var r := [es[0]] + rest;
    forall i, j | 0 <= i < j < |r|
      ensures Before(r[i], r[j])
    {
      if i == 0 {
        var e := rest[j - 1];
        if e != x {
          var k :| 0 <= k < |es[1..]| && es[1..][k] == e;
          assert es[k + 1] == e;
        }
      }
    }
  }

  /** Insertion sort by `(orderNum, id)`. */
  function SortEntries(es: seq<Entry>): (r: seq<Entry>)
    requires forall i, j | 0 <= i < j < |es| :: es[i].id != es[j].id
    ensures Sorted(r)
    ensures multiset(r) == multiset(es)
  {
    if es == [] then []
    else
      var init := es[..|es| - 1];
      var p := SortEntries(init);
      var x := es[|es| - 1];
      LastIdFresh(es, p);
      assert es == init + [x];
      InsertSorted(x, p)
  }

  /** The last entry's id occurs nowhere in a permutation of the others. */
  lemma LastIdFresh(es: seq<Entry>, p: seq<Entry>)
    requires es != []
    requires forall i, j | 0 <= i < j < |es| :: es[i].id != es[j].id
    requires multiset(p) == multiset(es[..|es| - 1])
    ensures forall i | 0 <= i < |p| :: p[i].id != es[|es| - 1].id
  {
    var init := es[..|es| - 1];
    forall i | 0 <= i < |p|
      ensures p[i].id != es[|es| - 1].id
    {
      assert p[i] in multiset(init);
      var k :| 0 <= k < |init| && init[k] == p[i];
      assert es[k] == p[i];
    }
  }

  /** Two lists with the same multiset have the same members. */
  lemma SameMembers(a: seq<Entry>, b: seq<Entry>)
    requires multiset(a) == multiset(b)
    ensures forall e :: e in a <==> e in b
  {
    forall e
      ensures e in a <==> e in b
    {
      assert e in a <==> e in multiset(a);
      assert e in b <==> e in multiset(b);
    }
  }

  /** The listing the inputs router is meant to give for a group: every row
      stored under it, soft-deleted ones included, and nothing else,
      ordered by `(orderNum, Id)`. */
  function ListForGroup(t: Table, gid: nat): (r: seq<Entry>)
    ensures Sorted(r)
    ensures forall i | 0 <= i < |r| :: r[i].id in t.rows && t.rows[r[i].id] == r[i].row && r[i].row.groupId == gid
    ensures forall k | k in t.rows && t.rows[k].groupId == gid :: Entry(k, t.rows[k]) in r
  {
    var es := GroupEntries(t.rows, gid, t.nextId);
    var r := SortEntries(es);
    SortedGroupRows(t, gid, es, r);
    r
  }

  /** A permutation of the group's rows has the group's rows as members. */
  lemma SortedGroupRows(t: Table, gid: nat, es: seq<Entry>, r: seq<Entry>)
    requires es == GroupEntries(t.rows, gid, t.nextId)
    requires multiset(r) == multiset(es)
    ensures forall i | 0 <= i < |r| :: r[i].id in t.rows && t.rows[r[i].id] == r[i].row && r[i].row.groupId == gid
    ensures forall k | k in t.rows && t.rows[k].groupId == gid :: Entry(k, t.rows[k]) in r
  {
    SameMembers(r, es);
    forall i | 0 <= i < |r|
      ensures r[i].id in t.rows && t.rows[r[i].id] == r[i].row && r[i].row.groupId == gid
    {
      assert r[i] in es;
      var k :| 0 <= k < |es| && es[k] == r[i];
    }
  }

  /** A prepared statement runs only with exactly one bound value per `?`
      placeholder; otherwise the server refuses it and the handler answers
      500. The one placeholder of the listing query is the group id. */
  function ExecuteListing(t: Table, placeholders: nat, params: seq<nat>): (r: Result<seq<Entry>>)
    ensures r.Ok? <==> |params| == placeholders == 1
    ensures r.Err? ==> r.error == StoreFailure
  {
    if |params| != placeholders || placeholders != 1 then Err(StoreFailure)
    else Ok(ListForGroup(t, params[0]))
  }

  /** `GET /group/:groupId` as written: the statement has one placeholder
      but no value is passed for it. */
  function ListByGroupAsWritten(t: Table, gid: nat): (r: Result<seq<Entry>>)
    ensures r.Err?
  {
    ExecuteListing(t, 1, [])
  }

  /** The listing with the group id bound: exactly the group's rows,
      sorted. */
  function ListByGroup(t: Table, gid: nat): (r: Result<seq<Entry>>)
    ensures r.Ok?
    ensures Sorted(r.value)
    ensures forall e | e in r.value :: e.id in t.rows && t.rows[e.id] == e.row && e.row.groupId == gid
    ensures forall k | k in t.rows && t.rows[k].groupId == gid :: Entry(k, t.rows[k]) in r.value
  {
    ExecuteListing(t, 1, [gid])
  }

  /** A concrete table where the as-written listing loses a stored row of
      the requested group: group 1 holds row 1, yet the handler answers
      with an error instead of that row. */
  lemma ListingAsWrittenLosesRows()
    ensures var t: Table := Store(map[1 := Row(1, "Red", false, false, 0)], 2);
      && 1 in t.rows && t.rows[1].groupId == 1
      && ListByGroupAsWritten(t, 1).Err?
      && ListByGroup(t, 1).Ok? && Entry(1, t.rows[1]) in ListByGroup(t, 1).value
  {
    var t: Table := Store(map[1 := Row(1, "Red", false, false, 0)], 2);
    assert 1 in t.rows && t.rows[1].groupId == 1;
  }

  /** A created row shows up in its group's listing, not deleted. */
  lemma CreateIsListed(t: Table, groupId: nat, f: Fields)
    requires Create(t, groupId, f).result.Ok?
    ensures var r := Create(t, groupId, f); var e := r.result.value;
      && e in ListByGroup(r.table, groupId).value
      && (f.isDeleted != Some(true) ==> !e.row.isDeleted)
      && ListByGroupAsWritten(r.table, groupId).Err?
  {
    var r := Create(t, groupId, f);
    var e := r.result.value;
    assert e.id in r.table.rows && r.table.rows[e.id] == e.row;
  }
}

=== FILE: multi_box.dfy ===
/** The list of text boxes the group editor keeps on the client, with its
    two counters: add, copy, toggle, delete and the load from a listing. */
module MultiBox {
  import opened Text
  import opened Results
  import InputTable
  import GroupTable

  /** One text box; id 0 is a box the server has not stored yet (`null`). */
  datatype Box = Box(id: nat, name: string, isSelected: bool, orderNum: int)

  /** The editor state the handlers read and write: the boxes, the two
      counters, the text typed into the add field, the group name field and
      the name the group had when it was loaded (`originalGroupName`). */
  datatype State = State(boxes: seq<Box>, selectedCount: int, totalCount: int, inputValue: string,
                         groupName: string, originalName: string)

  /** The box handlers leave the group name field and the loaded name alone. */
  predicate KeepsNames(r: State, s: State) {
    r.groupName == s.groupName && r.originalName == s.originalName
  }

  /** How many boxes are selected. */
  function SelectedIn(boxes: seq<Box>): (n: nat)
    ensures n <= |boxes|
  {
    if boxes == [] then 0
    else SelectedIn(boxes[..|boxes| - 1]) + (if boxes[|boxes| - 1].isSelected then 1 else 0)
  }

  /** The counters say how many boxes are selected and how many there are. */
  ghost predicate CountsAgree(s: State) {
    s.selectedCount == SelectedIn(s.boxes) && s.totalCount == |s.boxes|
  }

  /** Every box's `orderNum` is its position. */
  ghost predicate Numbered(boxes: seq<Box>) {
    forall i | 0 <= i < |boxes| :: boxes[i].orderNum == i
  }

  /** No stored id appears on two boxes; unsaved boxes (id 0) may repeat. */
  predicate DistinctIds(boxes: seq<Box>) {
    forall i, j | 0 <= i < j < |boxes| && boxes[i].id != 0 :: boxes[i].id != boxes[j].id
  }

  lemma {:induction false} SelectedInAppend(a: seq<Box>, b: seq<Box>)
    ensures SelectedIn(a + b) == SelectedIn(a) + SelectedIn(b)
    decreases |b|
  {
    if b != [] {
      var b' := b[..|b| - 1];
      assert (a + b)[..|a + b| - 1] == a + b';
      SelectedInAppend(a, b');
    } else {
      assert a + b == a;
    }
  }

  /** The count depends only on the selection flags. */
  lemma {:induction false} SelectedInSameFlags(a: seq<Box>, b: seq<Box>)
    requires |a| == |b|
    requires forall i | 0 <= i < |a| :: a[i].isSelected == b[i].isSelected
    ensures SelectedIn(a) == SelectedIn(b)
    decreases |a|
  {
    if a != [] {
      SelectedInSameFlags(a[..|a| - 1], b[..|b| - 1]);
    }
  }

  /** Some box is selected exactly when the count is positive. */
  lemma {:induction false} SelectedInPositive(boxes: seq<Box>)
    ensures SelectedIn(boxes) > 0 <==> exists i | 0 <= i < |boxes| :: boxes[i].isSelected
    decreases |boxes|
  {
    if boxes != [] {
      var init := boxes[..|boxes| - 1];
      SelectedInPositive(init);
      if exists i | 0 <= i < |init| :: init[i].isSelected {
        var i :| 0 <= i < |init| && init[i].isSelected;
        assert boxes[i].isSelected;
      }
      if exists i | 0 <= i < |boxes| :: boxes[i].isSelected {
        var i :| 0 <= i < |boxes| && boxes[i].isSelected;
        if i < |init| {
          assert init[i].isSelected;
        }
      }
    }
  }

  /** Some box is unselected exactly when the count falls short of the length. */
  lemma {:induction false} SelectedInShort(boxes: seq<Box>)
    ensures SelectedIn(boxes) < |boxes| <==> exists i | 0 <= i < |boxes| :: !boxes[i].isSelected
    decreases |boxes|
  {
    if boxes != [] {
      var init := boxes[..|boxes| - 1];
      SelectedInShort(init);
      if exists i | 0 <= i < |init| :: !init[i].isSelected {
        var i :| 0 <= i < |init| && !init[i].isSelected;
        assert !boxes[i].isSelected;
      }
      if exists i | 0 <= i < |boxes| :: !boxes[i].isSelected {
        var i :| 0 <= i < |boxes| && !boxes[i].isSelected;
        if i < |init| {
          assert !init[i].isSelected;
        }
      }
    }
  }

  /** The count of a list split around position `i`. */
  lemma SelectedInSplit(boxes: seq<Box>, i: nat)
    requires i < |boxes|
    ensures SelectedIn(boxes) ==
      SelectedIn(boxes[..i]) + (if boxes[i].isSelected then 1 else 0) + SelectedIn(boxes[i + 1..])
  {
    assert boxes == boxes[..i] + [boxes[i]] + boxes[i + 1..];
    SelectedInAppend(boxes[..i] + [boxes[i]], boxes[i + 1..]);
    SelectedInAppend(boxes[..i], [boxes[i]]);
    assert SelectedIn([boxes[i]]) == (if boxes[i].isSelected then 1 else 0) by {
      assert [boxes[i]][..0] == [];
    }
  }

  /** `forEach((box, idx) => box.orderNum = idx)`. */
  function Renumber(boxes: seq<Box>): (r: seq<Box>)
    ensures |r| == |boxes| && Numbered(r)
    ensures forall i | 0 <= i < |r| :: r[i] == boxes[i].(orderNum := i)
    ensures SelectedIn(r) == SelectedIn(boxes)
  {
    var r := seq(|boxes|, i requires 0 <= i < |boxes| => boxes[i].(orderNum := i));
    SelectedInSameFlags(r, boxes);
    r
  }

  /** `handleAddTextBox`: nothing happens when the typed text trims to
      nothing; otherwise an unsaved, unselected box with the trimmed text
      is appended at position `|boxes|`, the total grows by one and the
      field is cleared. */
  function Add(s: State): (r: State)
    ensures Trim(s.inputValue) == [] ==> r == s
    ensures Trim(s.inputValue) != [] ==>
      && r.boxes == s.boxes + [Box(0, Trim(s.inputValue), false, |s.boxes|)]
      && r.totalCount == s.totalCount + 1
      && r.selectedCount == s.selectedCount
      && r.inputValue == ""
    ensures KeepsNames(r, s)
  {
    if Trim(s.inputValue) == [] then s
    else
      var box := Box(0, Trim(s.inputValue), false, |s.boxes|);
      State(s.boxes + [box], s.selectedCount, s.totalCount + 1, "", s.groupName, s.originalName)
  }

  /** Adding keeps the counters right and the positions numbered. */
  lemma AddKeepsInvariants(s: State)
    ensures CountsAgree(s) ==> CountsAgree(Add(s))
    ensures Numbered(s.boxes) ==> Numbered(Add(s).boxes)
    ensures DistinctIds(s.boxes) ==> DistinctIds(Add(s).boxes)
  {
    if Trim(s.inputValue) != [] {
      var box := Box(0, Trim(s.inputValue), false, |s.boxes|);
      SelectedInAppend(s.boxes, [box]);
      assert SelectedIn([box]) == 0 by {
        assert [box][..0] == [];
      }
    }
  }

  /** `handleCopy(index)`: an unsaved copy of box `index` (same name and
      selection) goes right after it, every box is renumbered, the total
      grows by one and the selected count too when the copied box is
      selected. */
  function Copy(s: State, index: nat): (r: State)
    requires index < |s.boxes|
    ensures |r.boxes| == |s.boxes| + 1 && Numbered(r.boxes)
    ensures forall j | 0 <= j <= index :: r.boxes[j] == s.boxes[j].(orderNum := j)
    ensures r.boxes[index + 1] == Box(0, s.boxes[index].name, s.boxes[index].isSelected, index + 1)
    ensures forall j | index + 1 < j < |r.boxes| :: r.boxes[j] == s.boxes[j - 1].(orderNum := j)
    ensures r.totalCount == s.totalCount + 1
    ensures r.selectedCount == s.selectedCount + (if s.boxes[index].isSelected then 1 else 0)
    ensures r.inputValue == s.inputValue && KeepsNames(r, s)
  {
    var b := s.boxes[index];
    var copy := Box(0, b.name, b.isSelected, index + 1);
    var spliced := s.boxes[..index + 1] + [copy] + s.boxes[index + 1..];
    var boxes := Renumber(spliced);
    State(boxes, if b.isSelected then s.selectedCount + 1 else s.selectedCount, s.totalCount + 1, s.inputValue, s.groupName, s.originalName)
  }

  /** Copying keeps the counters right; on a numbered list the boxes up to
      `index` are untouched. */
  lemma CopyKeepsInvariants(s: State, index: nat)
    requires index < |s.boxes|
    ensures CountsAgree(s) ==> CountsAgree(Copy(s, index))
    ensures Numbered(s.boxes) ==> Copy(s, index).boxes[..index + 1] == s.boxes[..index + 1]
    ensures DistinctIds(s.boxes) ==> DistinctIds(Copy(s, index).boxes)
  {
    CopyCount(s, index);
    CopyIds(s, index);
    CopyPrefix(s, index);
  }

  /** On a numbered list the boxes up to the copied one are untouched. */
  lemma CopyPrefix(s: State, index: nat)
    requires index < |s.boxes|
    ensures Numbered(s.boxes) ==> Copy(s, index).boxes[..index + 1] == s.boxes[..index + 1]
  {
    if Numbered(s.boxes) {
      var c := Copy(s, index).boxes;
      assert forall j | 0 <= j <= index :: c[j] == s.boxes[j];
      assert c[..index + 1] == s.boxes[..index + 1];
    }
  }

  /** The copy is unsaved; every other box keeps its stored id. */
  lemma CopyIds(s: State, index: nat)
    requires index < |s.boxes|
    ensures DistinctIds(s.boxes) ==> DistinctIds(Copy(s, index).boxes)
  {
    if DistinctIds(s.boxes) {
      var c := Copy(s, index).boxes;
      forall i, j | 0 <= i < j < |c| && c[i].id != 0
        ensures c[i].id != c[j].id
      {
        var i' := if i <= index then i else i - 1;
        var j' := if j <= index then j else j - 1;
        assert c[i].id == s.boxes[i'].id;
        if j != index + 1 {
          assert c[j].id == s.boxes[j'].id;
        }
      }
    }
  }

  lemma CopyCount(s: State, index: nat)
    requires index < |s.boxes|
    ensures SelectedIn(Copy(s, index).boxes) == SelectedIn(s.boxes) + (if s.boxes[index].isSelected then 1 else 0)
  {
    var r := Copy(s, index);
    var rb := r.boxes;
    SelectedInSplit(rb, index + 1);
    SelectedInSplit(s.boxes, index);
    var head := rb[..index + 1];
    var sHead := s.boxes[..index];
    assert SelectedIn(head) == SelectedIn(sHead) + (if s.boxes[index].isSelected then 1 else 0) by {
      SelectedInSameFlags(head[..index], sHead);
      assert head[..index + 1][..index] == head[..index];
      assert head[index] == s.boxes[index].(orderNum := index);
    }
    SelectedInSameFlags(rb[index + 2..], s.boxes[index + 1..]);
  }

  /** `handleToggleSelection(index)`: flips the selection of box `index`
      only, then recounts the selected boxes; the total is untouched. */
  function Toggle(s: State, index: nat): (r: State)
    requires index < |s.boxes|
    ensures |r.boxes| == |s.boxes|
    ensures r.boxes[index] == s.boxes[index].(isSelected := !s.boxes[index].isSelected)
    ensures forall j | 0 <= j < |s.boxes| && j != index :: r.boxes[j] == s.boxes[j]
    ensures r.selectedCount == SelectedIn(r.boxes)
    ensures r.totalCount == s.totalCount && r.inputValue == s.inputValue && KeepsNames(r, s)
  {
    var b := s.boxes[index];
    var boxes := s.boxes[index := b.(isSelected := !b.isSelected)];
    s.(boxes := boxes, selectedCount := SelectedIn(boxes))
  }

  /** Toggling moves the selected count by exactly one and keeps the
      counters right; toggling twice restores the state. */
  lemma ToggleKeepsInvariants(s: State, index: nat)
    requires index < |s.boxes|
    ensures var r := Toggle(s, index);
      CountsAgree(s) ==> CountsAgree(r) && r.selectedCount == s.selectedCount + (if r.boxes[index].isSelected then 1 else -1)
    ensures Numbered(s.boxes) ==> Numbered(Toggle(s, index).boxes)
    ensures CountsAgree(s) ==> Toggle(Toggle(s, index), index) == s
    ensures DistinctIds(s.boxes) ==> DistinctIds(Toggle(s, index).boxes)
  {
    var r := Toggle(s, index);
    SelectedInSplit(s.boxes, index);
    SelectedInSplit(r.boxes, index);
    assert r.boxes[..index] == s.boxes[..index];
    assert r.boxes[index + 1..] == s.boxes[index + 1..];
    var r2 := Toggle(r, index);
    assert r2.boxes == s.boxes;
  }

  /** `handleDelete(index)`: box `index` is removed, the others keep their
      relative order and are renumbered; the total drops by one and the
      selected count too when the removed box was selected. */
  function Delete(s: State, index: nat): (r: State)
    requires index < |s.boxes|
    ensures |r.boxes| == |s.boxes| - 1 && Numbered(r.boxes)
    ensures forall j | 0 <= j < index :: r.boxes[j] == s.boxes[j].(orderNum := j)
    ensures forall j | index <= j < |r.boxes| :: r.boxes[j] == s.boxes[j + 1].(orderNum := j)
    ensures r.totalCount == s.totalCount - 1
    ensures r.selectedCount == s.selectedCount - (if s.boxes[index].isSelected then 1 else 0)
    ensures r.inputValue == s.inputValue && KeepsNames(r, s)
  {
    var boxes := Renumber(s.boxes[..index] + s.boxes[index + 1..]);
    State(boxes, if s.boxes[index].isSelected then s.selectedCount - 1 else s.selectedCount, s.totalCount - 1, s.inputValue, s.groupName, s.originalName)
  }

  /** Deleting keeps the counters right. */
  lemma DeleteKeepsInvariants(s: State, index: nat)
    requires index < |s.boxes|
    ensures CountsAgree(s) ==> CountsAgree(Delete(s, index))
    ensures DistinctIds(s.boxes) ==> DistinctIds(Delete(s, index).boxes)
  {
    SelectedInSplit(s.boxes, index);
    SelectedInAppend(s.boxes[..index], s.boxes[index + 1..]);
    DeleteIds(s, index);
  }

  /** The remaining boxes keep their stored ids. */
  lemma DeleteIds(s: State, index: nat)
    requires index < |s.boxes|
    ensures DistinctIds(s.boxes) ==> DistinctIds(Delete(s, index).boxes)
  {
    if DistinctIds(s.boxes) {
      var d := Delete(s, index).boxes;
      forall i, j | 0 <= i < j < |d| && d[i].id != 0
        ensures d[i].id != d[j].id
      {
        var i' := if i < index then i else i + 1;
        var j' := if j < index then j else j + 1;
        assert d[i].id == s.boxes[i'].id && d[j].id == s.boxes[j'].id;
      }
    }
  }

  /** Deleting the copy just made undoes the copy on a numbered list. */
  lemma DeleteUndoesCopy(s: State, index: nat)
    requires index < |s.boxes|
    requires Numbered(s.boxes)
    ensures Delete(Copy(s, index), index + 1) == s
  {
    var c := Copy(s, index);
    UndoCopy(s, c, Delete(c, index + 1), index);
  }

  /** The state after a copy and the deletion of the copy is the state
      before, given what each handler does to the boxes and counters. */
  lemma UndoCopy(s: State, c: State, d: State, index: nat)
    requires Numbered(s.boxes) && index < |s.boxes|
    requires |c.boxes| == |s.boxes| + 1
    requires forall j | 0 <= j <= index :: c.boxes[j] == s.boxes[j].(orderNum := j)
    requires c.boxes[index + 1].isSelected == s.boxes[index].isSelected
    requires forall j | index + 1 < j < |c.boxes| :: c.boxes[j] == s.boxes[j - 1].(orderNum := j)
    requires c.totalCount == s.totalCount + 1 && c.inputValue == s.inputValue && KeepsNames(c, s)
    requires c.selectedCount == s.selectedCount + (if s.boxes[index].isSelected then 1 else 0)
    requires |d.boxes| == |c.boxes| - 1
    requires forall j | 0 <= j < index + 1 :: d.boxes[j] == c.boxes[j].(orderNum := j)
    requires forall j | index + 1 <= j < |d.boxes| :: d.boxes[j] == c.boxes[j + 1].(orderNum := j)
    requires d.totalCount == c.totalCount - 1 && d.inputValue == c.inputValue && KeepsNames(d, c)
    requires d.selectedCount == c.selectedCount - (if c.boxes[index + 1].isSelected then 1 else 0)
    ensures d == s
  {
    RemoveInserted(s.boxes, c.boxes, d.boxes, index);
  }

  /** Renumbering after removing the box inserted behind `index` gives back
      a numbered list. */
  lemma RemoveInserted(b: seq<Box>, c: seq<Box>, d: seq<Box>, index: nat)
    requires Numbered(b) && index < |b|
    requires |c| == |b| + 1
    requires forall j | 0 <= j <= index :: c[j] == b[j].(orderNum := j)
    requires forall j | index + 1 < j < |c| :: c[j] == b[j - 1].(orderNum := j)
    requires |d| == |c| - 1
    requires forall j | 0 <= j < index + 1 :: d[j] == c[j].(orderNum := j)
    requires forall j | index + 1 <= j < |d| :: d[j] == c[j + 1].(orderNum := j)
    ensures d == b
  {
    forall j | 0 <= j < |b|
      ensures d[j] == b[j]
    {
      if j <= index {
        assert d[j] == c[j].(orderNum := j);
      } else {
        assert d[j] == c[j + 1].(orderNum := j);
      }
    }
  }

  /** Boxes the listing marks deleted are dropped, the rest keep their order. */
  function Visible(es: seq<InputTable.Entry>): (r: seq<InputTable.Entry>)
    ensures |r| <= |es|
    ensures forall i | 0 <= i < |r| :: !r[i].row.isDeleted && r[i] in es
    ensures forall e | e in es && !e.row.isDeleted :: e in r
    ensures (forall i, j | 0 <= i < j < |es| :: es[i].id != es[j].id) ==>
      forall i, j | 0 <= i < j < |r| :: r[i].id != r[j].id
    ensures InputTable.Sorted(es) ==> InputTable.Sorted(r)
  {
    if es == [] then []
    else
      var p := Visible(es[..|es| - 1]);
      var e := es[|es| - 1];
      VisibleStep(es, p);
      VisibleStepDistinct(es, p);
      VisibleStepSorted(es, p);
      if e.row.isDeleted then p else p + [e]
  }

  /** The step of `Visible` for its contents: the entries of `p` are live
      entries of all but the last, and the last is added when it is live. */
  lemma VisibleStep(es: seq<InputTable.Entry>, p: seq<InputTable.Entry>)
    requires es != []
    requires |p| <= |es| - 1
    requires forall i | 0 <= i < |p| :: !p[i].row.isDeleted && p[i] in es[..|es| - 1]
    requires forall e | e in es[..|es| - 1] && !e.row.isDeleted :: e in p
    ensures var r := if es[|es| - 1].row.isDeleted then p else p + [es[|es| - 1]];
      && |r| <= |es|
      && (forall i | 0 <= i < |r| :: !r[i].row.isDeleted && r[i] in es)
      && (forall e | e in es && !e.row.isDeleted :: e in r)
  {
    assert es == es[..|es| - 1] + [es[|es| - 1]];
  }

  /** The step of `Visible` keeps distinct ids distinct. */
  lemma VisibleStepDistinct(es: seq<InputTable.Entry>, p: seq<InputTable.Entry>)
    requires es != []
    requires forall x | x in p :: x in es[..|es| - 1]
    requires (forall i, j | 0 <= i < j < |es| - 1 :: es[i].id != es[j].id) ==>
      forall i, j | 0 <= i < j < |p| :: p[i].id != p[j].id
    ensures var r := if es[|es| - 1].row.isDeleted then p else p + [es[|es| - 1]];
      (forall i, j | 0 <= i < j < |es| :: es[i].id != es[j].id) ==>
        forall i, j | 0 <= i < j < |r| :: r[i].id != r[j].id
  {
    var init := es[..|es| - 1];
    var e := es[|es| - 1];
    if forall i, j | 0 <= i < j < |es| :: es[i].id != es[j].id {
      assert forall i, j | 0 <= i < j < |init| :: init[i].id != init[j].id by {
        forall i, j | 0 <= i < j < |init|
          ensures init[i].id != init[j].id
        {
          assert init[i] == es[i] && init[j] == es[j];
        }
      }
      if !e.row.isDeleted {
        forall x | x in p
          ensures x.id != e.id
        {
          var j :| 0 <= j < |init| && init[j] == x;
          assert es[j] == x;
        }
        DistinctSnoc(p, e);
      }
    }
  }

  /** The step of `Visible` keeps a sorted listing sorted. */
  lemma VisibleStepSorted(es: seq<InputTable.Entry>, p: seq<InputTable.Entry>)
    requires es != []
    requires forall x | x in p :: x in es[..|es| - 1]
    requires InputTable.Sorted(es[..|es| - 1]) ==> InputTable.Sorted(p)
    ensures var r := if es[|es| - 1].row.isDeleted then p else p + [es[|es| - 1]];
      InputTable.Sorted(es) ==> InputTable.Sorted(r)
  {
    var init := es[..|es| - 1];
    var e := es[|es| - 1];
    if InputTable.Sorted(es) {
      assert InputTable.Sorted(init) by {
        forall i, j | 0 <= i < j < |init|
          ensures InputTable.Before(init[i], init[j])
        {
          assert init[i] == es[i] && init[j] == es[j];
        }
      }
      if !e.row.isDeleted {
        forall x | x in p
          ensures InputTable.Before(x, e)
        {
          var j :| 0 <= j < |init| && init[j] == x;
          assert es[j] == x;
        }
        SortedSnoc(p, e);
      }
    }
  }

  /** An entry whose id no entry of `p` carries keeps the ids distinct. */
  lemma DistinctSnoc(p: seq<InputTable.Entry>, e: InputTable.Entry)
    requires forall i, j | 0 <= i < j < |p| :: p[i].id != p[j].id
    requires forall x | x in p :: x.id != e.id
    ensures forall i, j | 0 <= i < j < |p + [e]| :: (p + [e])[i].id != (p + [e])[j].id
  {
    forall i, j | 0 <= i < j < |p + [e]|
      ensures (p + [e])[i].id != (p + [e])[j].id
    {
      assert (p + [e])[i] == p[i];
    }
  }

  /** An entry that comes after every entry of a sorted `p` keeps it sorted. */
  lemma SortedSnoc(p: seq<InputTable.Entry>, e: InputTable.Entry)
    requires InputTable.Sorted(p)
    requires forall x | x in p :: InputTable.Before(x, e)
    ensures InputTable.Sorted(p + [e])
  {
    forall i, j | 0 <= i < j < |p + [e]|
      ensures InputTable.Before((p + [e])[i], (p + [e])[j])
    {
      assert (p + [e])[i] == p[i];
    }
  }

  /** The box a listed row becomes. `orderNum || 0` keeps every integer. */
  function ToBox(e: InputTable.Entry): Box {
    Box(e.id, e.row.name, e.row.isSelected, e.row.orderNum)
  }

  /** `updateCounts(rows)`: selected and not deleted, and not deleted. */
  function UpdateCounts(es: seq<InputTable.Entry>): (c: (nat, nat))
  {
    if es == [] then (0, 0)
    else
      var c := UpdateCounts(es[..|es| - 1]);
      var row := es[|es| - 1].row;
      (c.0 + (if row.isSelected && !row.isDeleted then 1 else 0), c.1 + (if !row.isDeleted then 1 else 0))
  }

  /** Counting the visible rows gives the selected and total numbers of the
      boxes they become. */
  lemma {:induction false} UpdateCountsOfVisible(es: seq<InputTable.Entry>)
    requires forall i | 0 <= i < |es| :: !es[i].row.isDeleted
    ensures UpdateCounts(es) == (SelectedIn(seq(|es|, i requires 0 <= i < |es| => ToBox(es[i]))), |es|)
    decreases |es|
  {
    if es != [] {
      var init := es[..|es| - 1];
      UpdateCountsOfVisible(init);
      var bs := seq(|es|, i requires 0 <= i < |es| => ToBox(es[i]));
      assert bs[..|bs| - 1] == seq(|init|, i requires 0 <= i < |init| => ToBox(init[i]));
    }
  }

  /** `loadGroupData`: the listing's rows that are not deleted become the
      boxes, in listing order, and the counters are set from them, so they
      agree with the boxes. */
  function Load(s: State, es: seq<InputTable.Entry>): (r: State)
    ensures |r.boxes| == |Visible(es)|
    ensures forall i | 0 <= i < |r.boxes| :: r.boxes[i] == ToBox(Visible(es)[i])
    ensures forall i | 0 <= i < |r.boxes| :: !Visible(es)[i].row.isDeleted
    ensures CountsAgree(r)
    ensures r.inputValue == s.inputValue && KeepsNames(r, s)
    ensures (forall i, j | 0 <= i < j < |es| :: es[i].id != es[j].id) ==> DistinctIds(r.boxes)
  {
    var v := Visible(es);
    var boxes := seq(|v|, i requires 0 <= i < |v| => ToBox(v[i]));
    UpdateCountsOfVisible(v);
    var c := UpdateCounts(v);
    State(boxes, c.0, c.1, s.inputValue, s.groupName, s.originalName)
  }

  /** `loadGroupData` against the two answers it awaits: the group lookup
      first, whose name goes into both the name field and the loaded name,
      then the listing, whose live rows become the boxes. A failing request
      is caught and alerted: the boxes and counters stay as they were, and
      when only the listing fails the names the lookup set stay set. */
  function LoadAnswer(s: State, group: Result<GroupTable.Group>, answer: Result<seq<InputTable.Entry>>): (r: State)
    ensures group.Err? ==> r == s
    ensures group.Ok? ==> r.groupName == group.value.name && r.originalName == group.value.name
    ensures group.Err? || answer.Err? ==>
      r.boxes == s.boxes && r.selectedCount == s.selectedCount && r.totalCount == s.totalCount
    ensures group.Ok? && answer.Ok? ==> |r.boxes| == |Visible(answer.value)| && CountsAgree(r)
    ensures group.Ok? && answer.Ok? ==>
      forall i | 0 <= i < |r.boxes| :: r.boxes[i] == ToBox(Visible(answer.value)[i])
    ensures r.inputValue == s.inputValue
  {
    match group
    case Err(_) => s
    case Ok(g) =>
      var named := s.(groupName := g.name, originalName := g.name);
      match answer
      case Err(_) => named
      case Ok(es) => Load(named, es)
  }
}

=== FILE: results.dfy ===
/** The outcome of a route handler: a value, or the kind of error response
    it sends. */
module Results {

  /** A request-body field that may be left undefined. */
  datatype Option<+T> = None | Some(value: T) {

    /** `x || default` for a field whose defined values are all truthy or
        equal to the default itself. */
    function GetOr(default: T): T {
      if Some? then value else default
    }
  }

  /** Invalid: 400 for a missing or empty required field or an empty update.
      Duplicate: 400 "Group name already exists".
      NotFound: 404 for an id that matches no row.
      StoreFailure: 500, an exception inside the handler. */
  datatype Error = Invalid | Duplicate | NotFound | StoreFailure

  datatype Result<+T> = Ok(value: T) | Err(error: Error)
}

=== FILE: save_flow.dfy ===
/** The editor's save: the client-side guards, the group write, and the
    bulk payload built from the boxes, composed with the two routes. */
module SaveFlow {
  import opened Text
  import opened Results
  import InputTable
  import BulkSave
  import GroupTable
  import MultiBox

  /** The editor opened without an id creates a group; with `?id=` it edits
      that group, whose name it loaded as the original name. */
  datatype Mode = Creating | Editing(groupId: nat, originalName: string)

  /** How a save ends: one of the three alerts the guards raise, the error a
      route answered with, or success with the group's id. */
  datatype Outcome = NeedName | NeedInputs | NameTaken | Failed(error: Error) | Saved(groupId: nat)

  /** The name goes to the check endpoint when creating, or when editing
      and it differs from the loaded name. */
  predicate Rechecks(mode: Mode, groupName: string) {
    mode.Creating? || groupName != mode.originalName
  }

  /** The group whose own name does not count as taken; no group has id 0. */
  function Except(mode: Mode): nat {
    if mode.Creating? then 0 else mode.groupId
  }

  /** The check's answer is a conflict when the name exists and, when
      editing, belongs to another group than the one being edited. */
  predicate Conflicts(c: GroupTable.Check, mode: Mode) {
    c.exists_ && (mode.Creating? || c.id != Some(mode.groupId))
  }

  /** The checks `handleSave` runs before writing, in order: a blank name,
      an empty list, then a name the check endpoint reports as held by
      another group. The check receives the name as typed, untrimmed.
      With unique group names the third alert fires exactly when some group
      other than the edited one holds that exact name. */
  function Guard(groups: GroupTable.Table, groupName: string, boxes: seq<MultiBox.Box>, mode: Mode): (r: Option<Outcome>)
    ensures r == Some(NeedName) <==> Trim(groupName) == []
    ensures r == Some(NeedInputs) <==> Trim(groupName) != [] && boxes == []
    ensures r.Some? ==> r.value == NeedName || r.value == NeedInputs || r.value == NameTaken
    ensures GroupTable.UniqueNames(groups) ==>
      (r == Some(NameTaken) <==>
        Trim(groupName) != [] && boxes != [] && Rechecks(mode, groupName)
        && GroupTable.NameTaken(groups, groupName, Except(mode)))
  {
    if Trim(groupName) == [] then Some(NeedName)
    else if boxes == [] then Some(NeedInputs)
    else if Rechecks(mode, groupName) && Conflicts(GroupTable.CheckName(groups, groupName), mode) then
      CheckMatchesTaken(groups, groupName, mode);
      Some(NameTaken)
    else
      CheckMatchesTaken(groups, groupName, mode);
      None
  }

  /** With unique names, the check's answer is a conflict exactly when a
      group other than the edited one holds the name. */
  lemma CheckMatchesTaken(groups: GroupTable.Table, name: string, mode: Mode)
    ensures GroupTable.UniqueNames(groups) ==>
      (Conflicts(GroupTable.CheckName(groups, name), mode) <==> GroupTable.NameTaken(groups, name, Except(mode)))
  {
    var c := GroupTable.CheckName(groups, name);
    if GroupTable.UniqueNames(groups) && GroupTable.NameTaken(groups, name, Except(mode)) {
      var k :| k in groups.rows && k != Except(mode) && groups.rows[k].name == name;
      GroupTable.CheckFindsTheOwner(groups, k);
    }
  }

  /** The record sent for box `i`: `id || null`, the name as shown, the
      selection, `isDeleted: false` and the position as `orderNum`. */
  function ToRecord(b: MultiBox.Box, i: nat): BulkSave.Record {
    BulkSave.Record(b.id, InputTable.Fields(Some(b.name), Some(b.isSelected), Some(false), Some(i)))
  }

  /** The `inputs` array of the bulk request: one record per box, in order,
      each carrying every column and the box's position. */
  function Payload(boxes: seq<MultiBox.Box>): (r: seq<BulkSave.Record>)
    ensures |r| == |boxes| && BulkSave.AllNamed(r)
    ensures forall i | 0 <= i < |r| ::
      && r[i].id == boxes[i].id
      && r[i].fields.name == Some(boxes[i].name)
      && r[i].fields.isSelected == Some(boxes[i].isSelected)
      && r[i].fields.isDeleted == Some(false)
      && r[i].fields.orderNum == Some(i)
  {
    seq(|boxes|, i requires 0 <= i < |boxes| => ToRecord(boxes[i], i))
  }

  /** The row box `i` should become in group `gid`. */
  function BoxRow(gid: nat, b: MultiBox.Box, i: nat): InputTable.Row {
    InputTable.Row(gid, Trim(b.name), b.isSelected, false, i)
  }

  /** A row the group's listing shows in the editor. */
  predicate Live(row: InputTable.Row, gid: nat) {
    row.groupId == gid && !row.isDeleted
  }

  lemma PayloadDistinct(boxes: seq<MultiBox.Box>)
    ensures var recs := Payload(boxes); forall i, j | 0 <= i < j < |recs| :: recs[i] != recs[j]
  {
    var recs := Payload(boxes);
    forall i, j | 0 <= i < j < |recs|
      ensures recs[i] != recs[j]
    {
      assert recs[i].fields.orderNum != recs[j].fields.orderNum;
    }
  }

  lemma RecordRow(gid: nat, boxes: seq<MultiBox.Box>, i: nat)
    requires i < |boxes|
    ensures InputTable.NewRow(gid, Payload(boxes)[i].fields) == BoxRow(gid, boxes[i], i)
  {
  }

  /** Every box is stored as its row. */
  lemma EveryBoxStored(t: InputTable.Table, gid: nat, boxes: seq<MultiBox.Box>, i: nat)
    requires gid != 0 && MultiBox.DistinctIds(boxes) && i < |boxes|
    ensures var t' := BulkSave.Bulk(t, gid, Some(Payload(boxes))).table;
      exists k :: k in t'.rows && t'.rows[k] == BoxRow(gid, boxes[i], i)
  {
    var k := StoredAt(t, gid, boxes, i);
  }

  /** The id under which box `i` is stored: its own id when it overwrites
      a row of the group, otherwise the counter value of its rank among the
      inserting records. */
  lemma StoredAt(t: InputTable.Table, gid: nat, boxes: seq<MultiBox.Box>, i: nat) returns (k: nat)
    requires gid != 0 && MultiBox.DistinctIds(boxes) && i < |boxes|
    ensures var t' := BulkSave.Bulk(t, gid, Some(Payload(boxes))).table;
      k in t'.rows && t'.rows[k] == BoxRow(gid, boxes[i], i)
  {
    var recs := Payload(boxes);
    RecordRow(gid, boxes, i);
    if BulkSave.IsUpdate(recs[i], BulkSave.ExistingIds(t, gid)) {
      k := recs[i].id;
      LastRecordOf(boxes, i);
      BulkSave.BulkAt(t, gid, recs, k);
    } else {
      k := StoredFresh(t, gid, recs, i);
    }
  }

  /** A box with a stored id is the only record carrying that id. */
  lemma LastRecordOf(boxes: seq<MultiBox.Box>, i: nat)
    requires MultiBox.DistinctIds(boxes) && i < |boxes| && boxes[i].id != 0
    ensures BulkSave.LastIndex(Payload(boxes), boxes[i].id) == Some(i)
  {
    assert Payload(boxes)[i].id == boxes[i].id;
  }

  /** An inserting record lands on the counter value of its rank. */
  lemma StoredFresh(t: InputTable.Table, gid: nat, recs: seq<BulkSave.Record>, i: nat) returns (k: nat)
    requires gid != 0 && BulkSave.AllNamed(recs) && i < |recs|
    requires !BulkSave.IsUpdate(recs[i], BulkSave.ExistingIds(t, gid))
    ensures var t' := BulkSave.Bulk(t, gid, Some(recs)).table;
      k in t'.rows && t'.rows[k] == InputTable.NewRow(gid, recs[i].fields)
  {
    BulkSave.InsertsAtRank(recs, BulkSave.ExistingIds(t, gid), i);
    k := t.nextId + BulkSave.InsertCount(recs[..i], BulkSave.ExistingIds(t, gid));
    assert k !in t.rows;
    BulkSave.BulkFreshAt(t, gid, recs, k);
  }

  /** Every row the group shows afterwards is the row of some box. */
  lemma OnlyBoxesLive(t: InputTable.Table, gid: nat, boxes: seq<MultiBox.Box>, k: nat)
    requires gid != 0
    ensures var t' := BulkSave.Bulk(t, gid, Some(Payload(boxes))).table;
      k in t'.rows && Live(t'.rows[k], gid) ==>
        exists i | 0 <= i < |boxes| :: t'.rows[k] == BoxRow(gid, boxes[i], i)
  {
    var recs := Payload(boxes);
    var t' := BulkSave.Bulk(t, gid, Some(recs)).table;
    if k in t'.rows && Live(t'.rows[k], gid) {
      var i := Source(t, gid, recs, k);
      RecordRow(gid, boxes, i);
    }
  }

  /** Two rows the group shows afterwards never share a position. */
  lemma LivePositionsDistinct(t: InputTable.Table, gid: nat, boxes: seq<MultiBox.Box>, k1: nat, k2: nat)
    requires gid != 0
    ensures var t' := BulkSave.Bulk(t, gid, Some(Payload(boxes))).table;
      (k1 in t'.rows && k2 in t'.rows && Live(t'.rows[k1], gid) && Live(t'.rows[k2], gid)
       && t'.rows[k1].orderNum == t'.rows[k2].orderNum) ==> k1 == k2
  {
    var recs := Payload(boxes);
    var t' := BulkSave.Bulk(t, gid, Some(recs)).table;
    if k1 in t'.rows && k2 in t'.rows && Live(t'.rows[k1], gid) && Live(t'.rows[k2], gid)
      && t'.rows[k1].orderNum == t'.rows[k2].orderNum {
      var i1 := Source(t, gid, recs, k1);
      var i2 := Source(t, gid, recs, k2);
      assert recs[i1].fields.orderNum == Some(i1);
      assert recs[i2].fields.orderNum == Some(i2);
      assert i1 == i2;
      var existing := BulkSave.ExistingIds(t, gid);
      var ins := BulkSave.Inserts(recs, existing);
      if k1 !in t.rows && k2 !in t.rows {
        PayloadDistinct(boxes);
        assert ins[k1 - t.nextId] == ins[k2 - t.nextId];
      }
    }
  }

  /** The record a live row of the group was written from: the last record
      carrying its id when it existed before, the inserting record of its
      rank when it is new. */
  lemma Source(t: InputTable.Table, gid: nat, recs: seq<BulkSave.Record>, k: nat) returns (i: nat)
    requires gid != 0 && BulkSave.AllNamed(recs)
    requires var t' := BulkSave.Bulk(t, gid, Some(recs)).table; k in t'.rows && Live(t'.rows[k], gid)
    ensures i < |recs|
    ensures var t' := BulkSave.Bulk(t, gid, Some(recs)).table;
      t'.rows[k] == InputTable.NewRow(gid, recs[i].fields)
    ensures k in t.rows ==> recs[i].id == k && BulkSave.IsUpdate(recs[i], BulkSave.ExistingIds(t, gid))
    ensures var ins := BulkSave.Inserts(recs, BulkSave.ExistingIds(t, gid));
      k !in t.rows ==> t.nextId <= k < t.nextId + |ins| && ins[k - t.nextId] == recs[i]
  {
    if k in t.rows {
      i := SourceOld(t, gid, recs, k);
    } else {
      i := SourceFresh(t, gid, recs, k);
    }
  }

  lemma SourceOld(t: InputTable.Table, gid: nat, recs: seq<BulkSave.Record>, k: nat) returns (i: nat)
    requires gid != 0 && BulkSave.AllNamed(recs) && k in t.rows
    requires var t' := BulkSave.Bulk(t, gid, Some(recs)).table; k in t'.rows && Live(t'.rows[k], gid)
    ensures i < |recs|
    ensures var t' := BulkSave.Bulk(t, gid, Some(recs)).table;
      t'.rows[k] == InputTable.NewRow(gid, recs[i].fields)
    ensures recs[i].id == k && BulkSave.IsUpdate(recs[i], BulkSave.ExistingIds(t, gid))
  {
    BulkSave.BulkAt(t, gid, recs, k);
    i := BulkSave.LastIndex(recs, k).value;
  }

  lemma SourceFresh(t: InputTable.Table, gid: nat, recs: seq<BulkSave.Record>, k: nat) returns (i: nat)
    requires gid != 0 && BulkSave.AllNamed(recs) && k !in t.rows
    requires k in BulkSave.Bulk(t, gid, Some(recs)).table.rows
    ensures i < |recs|
    ensures var t' := BulkSave.Bulk(t, gid, Some(recs)).table;
      t'.rows[k] == InputTable.NewRow(gid, recs[i].fields)
    ensures var ins := BulkSave.Inserts(recs, BulkSave.ExistingIds(t, gid));
      t.nextId <= k < t.nextId + |ins| && ins[k - t.nextId] == recs[i]
  {
    BulkSave.BulkFreshAt(t, gid, recs, k);
    i := InsertOrigin(recs, BulkSave.ExistingIds(t, gid), k - t.nextId);
  }

  /** The position in the request of the `n`-th inserting record. */
  lemma InsertOrigin(recs: seq<BulkSave.Record>, existing: set<nat>, n: nat) returns (i: nat)
    requires n < |BulkSave.Inserts(recs, existing)|
    ensures i < |recs| && recs[i] == BulkSave.Inserts(recs, existing)[n]
  {
    var ins := BulkSave.Inserts(recs, existing);
    assert ins[n] in recs;
    i :| 0 <= i < |recs| && recs[i] == ins[n];
  }

  /** Saving the boxes into group `gid`: the request succeeds; afterwards
      each box is a row of the group with its trimmed name, its selection,
      `isDeleted` false and its position; every row the group shows is one
      of those; no two shown rows share a position; and rows of other
      groups are untouched. Stored ids must not repeat across boxes. */
  lemma PayloadReconciles(t: InputTable.Table, gid: nat, boxes: seq<MultiBox.Box>)
    requires gid != 0 && MultiBox.DistinctIds(boxes)
    ensures BulkSave.Bulk(t, gid, Some(Payload(boxes))).result.Ok?
    ensures var t' := BulkSave.Bulk(t, gid, Some(Payload(boxes))).table;
      && (forall i | 0 <= i < |boxes| :: exists k :: k in t'.rows && t'.rows[k] == BoxRow(gid, boxes[i], i))
      && (forall k | k in t'.rows && Live(t'.rows[k], gid) ::
            exists i | 0 <= i < |boxes| :: t'.rows[k] == BoxRow(gid, boxes[i], i))
      && (forall k1, k2 | k1 in t'.rows && k2 in t'.rows && Live(t'.rows[k1], gid) && Live(t'.rows[k2], gid)
            && t'.rows[k1].orderNum == t'.rows[k2].orderNum :: k1 == k2)
      && (forall k | k in t.rows && t.rows[k].groupId != gid :: k in t'.rows && t'.rows[k] == t.rows[k])
  {
    var recs := Payload(boxes);
    BulkSave.BulkSpec(t, gid, recs);
    var t' := BulkSave.Bulk(t, gid, Some(recs)).table;
    forall i | 0 <= i < |boxes|
      ensures exists k :: k in t'.rows && t'.rows[k] == BoxRow(gid, boxes[i], i)
    {
      EveryBoxStored(t, gid, boxes, i);
    }
    forall k | k in t'.rows && Live(t'.rows[k], gid)
      ensures exists i | 0 <= i < |boxes| :: t'.rows[k] == BoxRow(gid, boxes[i], i)
    {
      OnlyBoxesLive(t, gid, boxes, k);
    }
    forall k1, k2 | k1 in t'.rows && k2 in t'.rows && Live(t'.rows[k1], gid) && Live(t'.rows[k2], gid)
      && t'.rows[k1].orderNum == t'.rows[k2].orderNum
      ensures k1 == k2
    {
      LivePositionsDistinct(t, gid, boxes, k1, k2);
    }
  }

  /** A strictly increasing list of positions below `n` that names every
      position below `n` is exactly `0, 1, …, n - 1`. */
  lemma Positions(w: seq<int>, n: nat)
    requires forall a, b | 0 <= a < b < |w| :: w[a] < w[b]
    requires forall m | 0 <= m < |w| :: 0 <= w[m] < n
    requires forall x | 0 <= x < n :: x in w
    ensures |w| == n
    ensures forall m | 0 <= m < |w| :: w[m] == m
  {
    IdentityPrefix(w, n, |w|);
    if |w| > 0 {
      assert w[|w| - 1] == |w| - 1;
    }
    if n > 0 {
      assert n - 1 in w;
      var p :| 0 <= p < |w| && w[p] == n - 1;
      assert p == n - 1;
    }
  }

  lemma {:induction false} AtLeastIndex(w: seq<int>, m: nat)
    requires forall a, b | 0 <= a < b < |w| :: w[a] < w[b]
    requires forall j | 0 <= j < |w| :: 0 <= w[j]
    requires m < |w|
    ensures w[m] >= m
  {
    if m > 0 {
      AtLeastIndex(w, m - 1);
    }
  }

  lemma {:induction false} IdentityPrefix(w: seq<int>, n: nat, m: nat)
    requires forall a, b | 0 <= a < b < |w| :: w[a] < w[b]
    requires forall j | 0 <= j < |w| :: 0 <= w[j] < n
    requires forall x | 0 <= x < n :: x in w
    requires m <= |w|
    ensures forall j | 0 <= j < m :: w[j] == j
  {
    if m > 0 {
      IdentityPrefix(w, n, m - 1);
      AtLeastIndex(w, m - 1);
      assert m - 1 in w;
    }
  }

  /** The input table after saving `boxes` into group `gid`. */
  ghost function After(t: InputTable.Table, gid: nat, boxes: seq<MultiBox.Box>): InputTable.Table {
    BulkSave.Bulk(t, gid, Some(Payload(boxes))).table
  }

  /** The rows the editor keeps from the group's listing after saving. */
  ghost function Shown(t: InputTable.Table, gid: nat, boxes: seq<MultiBox.Box>): seq<InputTable.Entry> {
    MultiBox.Visible(InputTable.ListByGroup(After(t, gid, boxes), gid).value)
  }

  /** A shown row is a live row of the group as stored after the save. */
  lemma ShownIsLive(t: InputTable.Table, gid: nat, boxes: seq<MultiBox.Box>, m: nat)
    requires m < |Shown(t, gid, boxes)|
    ensures var t' := After(t, gid, boxes); var v := Shown(t, gid, boxes);
      v[m].id in t'.rows && t'.rows[v[m].id] == v[m].row && Live(v[m].row, gid)
  {
    var l := InputTable.ListByGroup(After(t, gid, boxes), gid).value;
    assert Shown(t, gid, boxes)[m] in l;
  }

  /** A live row of the group after the save is shown. */
  lemma LiveIsShown(t: InputTable.Table, gid: nat, boxes: seq<MultiBox.Box>, k: nat)
    requires var t' := After(t, gid, boxes); k in t'.rows && Live(t'.rows[k], gid)
    ensures InputTable.Entry(k, After(t, gid, boxes).rows[k]) in Shown(t, gid, boxes)
  {
    var t' := After(t, gid, boxes);
    var l := InputTable.ListByGroup(t', gid).value;
    assert InputTable.Entry(k, t'.rows[k]) in l;
  }

  /** Each shown row is a live row of the group, written from some box. */
  lemma ShownFromBoxes(t: InputTable.Table, gid: nat, boxes: seq<MultiBox.Box>, m: nat)
    requires gid != 0 && m < |Shown(t, gid, boxes)|
    ensures var v := Shown(t, gid, boxes);
      exists i | 0 <= i < |boxes| :: v[m].row == BoxRow(gid, boxes[i], i)
  {
    var v := Shown(t, gid, boxes);
    ShownIsLive(t, gid, boxes, m);
    OnlyBoxesLive(t, gid, boxes, v[m].id);
  }

  /** The shown rows keep the listing's order. */
  lemma ShownSorted(t: InputTable.Table, gid: nat, boxes: seq<MultiBox.Box>)
    ensures InputTable.Sorted(Shown(t, gid, boxes))
  {
  }

  /** Shown rows come in strictly increasing position order. */
  lemma ShownIncreasing(t: InputTable.Table, gid: nat, boxes: seq<MultiBox.Box>, a: nat, b: nat)
    requires gid != 0 && a < b < |Shown(t, gid, boxes)|
    ensures var v := Shown(t, gid, boxes); v[a].row.orderNum < v[b].row.orderNum
  {
    var v := Shown(t, gid, boxes);
    ShownSorted(t, gid, boxes);
    assert InputTable.Before(v[a], v[b]);
    ShownIsLive(t, gid, boxes, a);
    ShownIsLive(t, gid, boxes, b);
    LivePositionsDistinct(t, gid, boxes, v[a].id, v[b].id);
  }

  /** Every box's position is shown. */
  lemma ShownCovers(t: InputTable.Table, gid: nat, boxes: seq<MultiBox.Box>, x: nat)
    requires gid != 0 && MultiBox.DistinctIds(boxes) && x < |boxes|
    ensures var v := Shown(t, gid, boxes);
      exists m | 0 <= m < |v| :: v[m].row.orderNum == x
  {
    var t' := After(t, gid, boxes);
    var v := Shown(t, gid, boxes);
    var k := StoredAt(t, gid, boxes, x);
    LiveIsShown(t, gid, boxes, k);
    var m :| 0 <= m < |v| && v[m] == InputTable.Entry(k, t'.rows[k]);
  }

  /** The positions entries carry, in their order. */
  function OrderNums(v: seq<InputTable.Entry>): seq<int> {
    seq(|v|, m requires 0 <= m < |v| => v[m].row.orderNum)
  }

  /** A position an entry carries is among the entries' positions. */
  lemma OrderNumsHas(v: seq<InputTable.Entry>, m: nat)
    requires m < |v|
    ensures v[m].row.orderNum in OrderNums(v)
  {
    assert OrderNums(v)[m] == v[m].row.orderNum;
  }

  /** The positions of the shown rows, in listing order. */
  ghost function ShownOrder(t: InputTable.Table, gid: nat, boxes: seq<MultiBox.Box>): seq<int> {
    OrderNums(Shown(t, gid, boxes))
  }

  /** Each shown position is a box position. */
  lemma ShownOrderInRange(t: InputTable.Table, gid: nat, boxes: seq<MultiBox.Box>)
    requires gid != 0
    ensures var w := ShownOrder(t, gid, boxes); forall m | 0 <= m < |w| :: 0 <= w[m] < |boxes|
  {
    var w := ShownOrder(t, gid, boxes);
    forall m | 0 <= m < |w|
      ensures 0 <= w[m] < |boxes|
    {
      ShownFromBoxes(t, gid, boxes, m);
    }
  }

  /** The shown positions increase strictly. */
  lemma ShownOrderIncreasing(t: InputTable.Table, gid: nat, boxes: seq<MultiBox.Box>)
    requires gid != 0
    ensures var w := ShownOrder(t, gid, boxes); forall a, b | 0 <= a < b < |w| :: w[a] < w[b]
  {
    var w := ShownOrder(t, gid, boxes);
    forall a, b | 0 <= a < b < |w|
      ensures w[a] < w[b]
    {
      ShownIncreasing(t, gid, boxes, a, b);
    }
  }

  /** Box position `x` is among the shown positions. */
  lemma ShownOrderHas(t: InputTable.Table, gid: nat, boxes: seq<MultiBox.Box>, x: nat)
    requires gid != 0 && MultiBox.DistinctIds(boxes) && x < |boxes|
    ensures x in ShownOrder(t, gid, boxes)
  {
    var v := Shown(t, gid, boxes);
    ShownCovers(t, gid, boxes, x);
    var m :| 0 <= m < |v| && v[m].row.orderNum == x;
    OrderNumsHas(v, m);
  }

  /** Every box position is shown. */
  lemma ShownOrderCovers(t: InputTable.Table, gid: nat, boxes: seq<MultiBox.Box>)
    requires gid != 0 && MultiBox.DistinctIds(boxes)
    ensures var w := ShownOrder(t, gid, boxes); forall x | 0 <= x < |boxes| :: x in w
  {
    forall x | 0 <= x < |boxes|
      ensures x in ShownOrder(t, gid, boxes)
    {
      ShownOrderHas(t, gid, boxes, x);
    }
  }

  /** The positions of the shown rows are exactly `0, 1, …, |boxes| - 1`. */
  lemma ShownPositions(t: InputTable.Table, gid: nat, boxes: seq<MultiBox.Box>)
    requires gid != 0 && MultiBox.DistinctIds(boxes)
    ensures var v := Shown(t, gid, boxes);
      |v| == |boxes| && forall m | 0 <= m < |v| :: v[m].row.orderNum == m
  {
    var w := ShownOrder(t, gid, boxes);
    ShownOrderInRange(t, gid, boxes);
    ShownOrderIncreasing(t, gid, boxes);
    ShownOrderCovers(t, gid, boxes);
    Positions(w, |boxes|);
    ShownOrderIsIdentity(t, gid, boxes);
  }

  /** A shown order that counts up from 0 numbers the shown rows. */
  lemma ShownOrderIsIdentity(t: InputTable.Table, gid: nat, boxes: seq<MultiBox.Box>)
    requires var w := ShownOrder(t, gid, boxes); |w| == |boxes| && forall m | 0 <= m < |w| :: w[m] == m
    ensures var v := Shown(t, gid, boxes);
      |v| == |boxes| && forall m | 0 <= m < |v| :: v[m].row.orderNum == m
  {
    var w := ShownOrder(t, gid, boxes);
    var v := Shown(t, gid, boxes);
    forall m | 0 <= m < |v|
      ensures v[m].row.orderNum == m
    {
      assert w[m] == v[m].row.orderNum;
    }
  }

  /** After saving, the rows the editor keeps from the group's listing
      are the boxes' rows, one per box, in box order. */
  lemma SavedListing(t: InputTable.Table, gid: nat, boxes: seq<MultiBox.Box>)
    requires gid != 0 && MultiBox.DistinctIds(boxes)
    ensures var v := Shown(t, gid, boxes);
      |v| == |boxes| && forall m | 0 <= m < |v| :: v[m].row == BoxRow(gid, boxes[m], m)
  {
    var v := Shown(t, gid, boxes);
    ShownPositions(t, gid, boxes);
    forall m | 0 <= m < |v|
      ensures v[m].row == BoxRow(gid, boxes[m], m)
    {
      ShownFromBoxes(t, gid, boxes, m);
      var i :| 0 <= i < |boxes| && v[m].row == BoxRow(gid, boxes[i], i);
      assert i == v[m].row.orderNum == m;
    }
  }

  /** Saving and then reloading the group shows the same list: as many
      boxes, in the same order, each with its trimmed name, its selection
      and its position, and the counters in step. */
  lemma SaveThenLoad(t: InputTable.Table, gid: nat, boxes: seq<MultiBox.Box>, s: MultiBox.State)
    requires gid != 0 && MultiBox.DistinctIds(boxes)
    ensures var t' := BulkSave.Bulk(t, gid, Some(Payload(boxes))).table;
      var r := MultiBox.Load(s, InputTable.ListByGroup(t', gid).value);
      && |r.boxes| == |boxes|
      && MultiBox.CountsAgree(r)
      && MultiBox.Numbered(r.boxes)
      && forall i | 0 <= i < |boxes| ::
           r.boxes[i].name == Trim(boxes[i].name) && r.boxes[i].isSelected == boxes[i].isSelected
  {
    SavedListing(t, gid, boxes);
  }

  /** The reload after an edit-mode save, with the listing route as it is
      written: the group lookup answers the name just saved, which becomes
      both the name field and the loaded name, so the next save skips the
      name check; the listing then answers an error whatever the table
      holds, so the editor alerts and keeps the boxes and counters it had,
      and a box added before the save still carries no stored id. */
  lemma SaveThenLoadAsWritten(groups: GroupTable.Table, inputs: InputTable.Table, groupName: string,
                              boxes: seq<MultiBox.Box>, gid: nat, originalName: string, s: MultiBox.State)
    requires Save(groups, inputs, groupName, boxes, Editing(gid, originalName)).2.Saved?
    ensures var (g', t', _) := Save(groups, inputs, groupName, boxes, Editing(gid, originalName));
      var r := MultiBox.LoadAnswer(s, GroupTable.Get(g', gid), InputTable.ListByGroupAsWritten(t', gid));
      && r.boxes == s.boxes && r.selectedCount == s.selectedCount && r.totalCount == s.totalCount
      && r.groupName == Trim(groupName) && r.originalName == Trim(groupName)
      && !Rechecks(Editing(gid, r.originalName), r.groupName)
      && (s.boxes == boxes ==> forall i | 0 <= i < |boxes| && boxes[i].id == 0 :: r.boxes[i].id == 0)
  {
  }

  /** `handleSave` against the two tables: the guards first, then the
      group write (create, or rename even when the name is unchanged), then
      the bulk save into the group. A refused group write answers its error
      and leaves the group table as it was; the bulk save of a payload
      cannot fail, since every record carries a name, so a failed save has
      written nothing. */
  function Save(groups: GroupTable.Table, inputs: InputTable.Table, groupName: string,
                boxes: seq<MultiBox.Box>, mode: Mode): (r: (GroupTable.Table, InputTable.Table, Outcome))
    ensures r.2 == NeedName || r.2 == NeedInputs || r.2 == NameTaken ==> r.0 == groups && r.1 == inputs
    ensures r.2.Failed? ==> r.1.rows == inputs.rows
    ensures r.2.Failed? ==> r.0 == groups && r.1 == inputs && r.2.error != StoreFailure
    ensures r.2 == Guard(groups, groupName, boxes, mode).GetOr(r.2)
    ensures r.2.Saved? ==>
      && r.2.groupId in r.0.rows && r.0.rows[r.2.groupId].name == Trim(groupName)
      && r.1 == BulkSave.Bulk(inputs, r.2.groupId, Some(Payload(boxes))).table
    ensures r.2.Saved? && mode.Editing? ==> r.2.groupId == mode.groupId
    ensures r.2.Saved? && mode.Creating? ==> r.2.groupId !in groups.rows
    ensures GroupTable.UniqueNames(groups) ==> GroupTable.UniqueNames(r.0)
  {
    match Guard(groups, groupName, boxes, mode)
    case Some(o) => (groups, inputs, o)
    case None =>
      var written :=
        if mode.Editing? then GroupTable.Rename(groups, mode.groupId, Some(groupName))
        else GroupTable.Create(groups, Some(groupName));
      match written.result
      case Err(e) => (written.table, inputs, Failed(e))
      case Ok(v) =>
        var bulk := BulkSave.Bulk(inputs, v.0, Some(Payload(boxes)));
        match bulk.result
        case Err(e) => (written.table, bulk.table, Failed(e))
        case Ok(_) => (written.table, bulk.table, Saved(v.0))
  }

  /** Creating a group under a fresh, already trimmed name with boxes whose
      stored ids do not repeat always ends saved: the new group holds the
      name and its rows are exactly the boxes. */
  lemma CreateSaves(groups: GroupTable.Table, inputs: InputTable.Table, groupName: string, boxes: seq<MultiBox.Box>)
    requires GroupTable.UniqueNames(groups)
    requires Trim(groupName) == groupName && groupName != [] && boxes != []
    requires !GroupTable.NameTaken(groups, groupName, 0)
    requires MultiBox.DistinctIds(boxes)
    ensures var r := Save(groups, inputs, groupName, boxes, Creating);
      && r.2.Saved?
      && r.0.rows == groups.rows[r.2.groupId := GroupTable.Group(groupName)]
      && r.1 == BulkSave.Bulk(inputs, r.2.groupId, Some(Payload(boxes))).table
  {
    assert !AllSpace(groupName) by {
      assert Trim(groupName) != [];
    }
    var c := GroupTable.Create(groups, Some(groupName));
    assert c.result.Ok?;
    var gid := c.result.value.0;
    assert gid != 0;
    PayloadReconciles(inputs, gid, boxes);
  }

  /** Editing an existing group under an already trimmed name no other
      group holds, with boxes whose stored ids do not repeat, always ends
      saved into that group: it holds the name and its rows are exactly the
      boxes. */
  lemma EditSaves(groups: GroupTable.Table, inputs: InputTable.Table, groupName: string,
                  boxes: seq<MultiBox.Box>, gid: nat, originalName: string)
    requires GroupTable.UniqueNames(groups)
    requires Trim(groupName) == groupName && groupName != [] && boxes != []
    requires gid in groups.rows && !GroupTable.NameTaken(groups, groupName, gid)
    requires MultiBox.DistinctIds(boxes)
    ensures var r := Save(groups, inputs, groupName, boxes, Editing(gid, originalName));
      && r.2 == Saved(gid)
      && r.0.rows == groups.rows[gid := GroupTable.Group(groupName)]
      && r.1 == BulkSave.Bulk(inputs, gid, Some(Payload(boxes))).table
  {
    assert !GroupTable.Blank(Some(groupName));
    assert GroupTable.Rename(groups, gid, Some(groupName)).result.Ok?;
    PayloadReconciles(inputs, gid, boxes);
  }

  /** The check sees the name as typed while the routes store it trimmed:
      a trailing space slips past the client's check and the server answers
      that the name exists, leaving both tables as they were. */
  lemma TrailingSpaceCaughtByServer()
    ensures var groups := GroupTable.Store(map[1 := GroupTable.Group("Red")], 2);
      var inputs := InputTable.Store(map[], 1);
      var boxes := [MultiBox.Box(0, "a", false, 0)];
      && Guard(groups, "Red ", boxes, Creating).None?
      && Save(groups, inputs, "Red ", boxes, Creating) == (groups, inputs, Failed(Duplicate))
  {
    var groups := GroupTable.Store(map[1 := GroupTable.Group("Red")], 2);
    RedGuardPasses(groups);
    RedCreateRefused(groups);
  }

  lemma TrimsToRed()
    ensures Trim("Red ") == "Red"
  {
    assert TrimStart("Red ") == "Red ";
    assert TrimEnd("Red ") == "Red" by {
      assert "Red "[..3] == "Red";
    }
  }

  lemma RedGuardPasses(groups: GroupTable.Table)
    requires groups == GroupTable.Store(map[1 := GroupTable.Group("Red")], 2)
    ensures Guard(groups, "Red ", [MultiBox.Box(0, "a", false, 0)], Creating).None?
  {
    TrimsToRed();
    assert GroupTable.UniqueNames(groups);
    assert !GroupTable.NameTaken(groups, "Red ", 0);
  }

  lemma RedCreateRefused(groups: GroupTable.Table)
    requires groups == GroupTable.Store(map[1 := GroupTable.Group("Red")], 2)
    ensures GroupTable.Create(groups, Some("Red ")) == GroupTable.Reply(groups, Err(Duplicate))
  {
    TrimsToRed();
    assert 1 in groups.rows && groups.rows[1].name == "Red";
  }
}

=== FILE: text.dfy ===
/** Strings as the route handlers and the client see them: JavaScript's
    `String.prototype.trim` and the substring test behind the name search. */
module Text {

  /** The code points `trim` strips: the ECMAScript WhiteSpace set (tab,
      vertical tab, form feed, space, no-break space, byte order mark and
      every Zs separator) together with the LineTerminator set. */
  predicate IsSpace(c: char) {
    var n := c as int;
    || n == 0x09 || n == 0x0A || n == 0x0B || n == 0x0C || n == 0x0D
    || n == 0x20 || n == 0xA0 || n == 0x1680
    || (0x2000 <= n <= 0x200A)
    || n == 0x2028 || n == 0x2029 || n == 0x202F || n == 0x205F
    || n == 0x3000 || n == 0xFEFF
  }

  ghost predicate AllSpace(s: string) {
    forall i | 0 <= i < |s| :: IsSpace(s[i])
  }

  /** Drops leading white space. */
  function TrimStart(s: string): string {
    if s != [] && IsSpace(s[0]) then TrimStart(s[1..]) else s
  }

  /** `TrimStart` removes an all-space prefix and stops at a non-space
      character or the end. */
  lemma {:induction false} TrimStartSpec(s: string)
    ensures var r := TrimStart(s);
      && |r| <= |s| && r == s[|s| - |r|..]
      && AllSpace(s[..|s| - |r|])
      && (r == [] || !IsSpace(r[0]))
  {
    if s != [] && IsSpace(s[0]) {
      var t := s[1..];
      TrimStartSpec(t);
      var r := TrimStart(t);
      var n := |s| - |r|;
      assert t[|t| - |r|..] == s[n..];
      forall i | 0 <= i < n
        ensures IsSpace(s[..n][i])
      {
        if 0 < i {
          assert s[..n][i] == t[..|t| - |r|][i - 1];
        }
      }
    }
  }

  /** Drops trailing white space. */
  function TrimEnd(s: string): string {
    if s != [] && IsSpace(s[|s| - 1]) then TrimEnd(s[..|s| - 1]) else s
  }

  /** `TrimEnd` removes an all-space suffix and stops at a non-space
      character or the start. */
  lemma {:induction false} TrimEndSpec(s: string)
    ensures var r := TrimEnd(s);
      && |r| <= |s| && r == s[..|r|]
      && AllSpace(s[|r|..])
      && (r == [] || !IsSpace(r[|r| - 1]))
  {
    if s != [] && IsSpace(s[|s| - 1]) {
      TrimEndSpec(s[..|s| - 1]);
      var r := TrimEnd(s);
      assert s[|r|..] == s[..|s| - 1][|r|..] + [s[|s| - 1]];
    }
  }

  /** Number of leading white-space characters. */
  function Lead(s: string): nat {
    TrimStartSpec(s);
    |s| - |TrimStart(s)|
  }

  /** `s.trim()`: the longest infix of `s` that starts and ends with a
      non-space character, cut out between an all-space prefix and an
      all-space suffix. */
  function Trim(s: string): (r: string)
    ensures Lead(s) + |r| <= |s| && r == s[Lead(s)..Lead(s) + |r|]
    ensures AllSpace(s[..Lead(s)]) && AllSpace(s[Lead(s) + |r|..])
    ensures r == [] || (!IsSpace(r[0]) && !IsSpace(r[|r| - 1]))
    ensures r == [] <==> AllSpace(s)
  {
    var t := TrimStart(s);
    var r := TrimEnd(t);
    TrimStartSpec(s);
    TrimEndSpec(t);
    assert s[Lead(s)..] == t;
    assert s[Lead(s) + |r|..] == t[|r|..];
    SpaceSplit(s, Lead(s), r);
    r
  }

  /** A string cut into an all-space prefix, an empty middle and an
      all-space suffix is all space. */
  lemma SpaceSplit(s: string, lead: nat, r: string)
    requires lead + |r| <= |s|
    requires AllSpace(s[..lead]) && AllSpace(s[lead + |r|..])
    ensures r == [] ==> AllSpace(s)
  {
    if r == [] {
      forall i | 0 <= i < |s|
        ensures IsSpace(s[i])
      {
        if i < lead {
          assert s[..lead][i] == s[i];
        } else {
          assert s[lead..][i - lead] == s[i];
        }
      }
    }
  }

  /** Trimming an already trimmed string changes nothing. */
  lemma TrimIdempotent(s: string)
    ensures Trim(Trim(s)) == Trim(s)
  {
    var r := Trim(s);
    assert TrimStart(r) == r;
    assert TrimEnd(r) == r;
  }

  /** `frag` occurs in `s` starting at position `i`. */
  predicate OccursAt(s: string, frag: string, i: nat) {
    i + |frag| <= |s| && s[i..i + |frag|] == frag
  }

  /** `frag` is a substring of `s`: the literal reading of `LIKE '%frag%'`. */
  predicate Contains(s: string, frag: string) {
    exists i: nat | i <= |s| :: OccursAt(s, frag, i)
  }
}
